=== FILE: README.md ===
# Smart interviewer — a verified model of its core

This project models, in Dafny, the logic of a mock-interview application:

- **The static interview page** (`public/app.js`). It is a four-phase machine: landing, ready, interview, complete. One button is visible in each phase. Narration goes through a promise chain that plays one utterance at a time and never stalls on a failing one.
- **The voice-agent page** (`app.js`). It drives a remote conversational agent by sending it question messages.
- **The transcription route** (`src/app/api/transcribe/route.js`). It turns speech-recogniser results into a transcript and keeps a one-session answer log on disk.
- **The data aggregator** (`src/lib/dataAggregator.js`). It reads the answer log and the two vitals event files back for one session.
- **The report generator client** (`src/lib/gemini.js`). It retries a language-model call after rate-limit errors, with growing waits.
- **The report route** (`src/app/api/generate-report/route.js`). It validates the session id, aggregates, generates, and sorts failures into 404 and 500.
- **The setup form** (`src/app/page.js`, `src/lib/utils.js`). It handles validation, the submit handler and the field updater.
- **The report renderer** (`renderMarkdown` in `src/components/Results/ReportDisplay.jsx`). It is a line-based markdown subset, with a lazy `**bold**` rewrite.
- **The vitals logger's session manager** (`presage_quickstart/hello_vitals.cpp`). The 'a' key toggles the recording of one question. Frames are collected while recording. Numbered per-question summaries are written.

Everything is modelled with immutable datatypes and pure functions:

- **Files on disk** are `StoredFile<T>` values: `Missing`, `Corrupt` or `Holds(value)`.
- **Messages sent** to the agent are an outbound log.
- **Clock readings, random picks, the recogniser's reply and the model's behaviour** on each attempt are parameters.
- **A JavaScript exception thrown mid-handler** is modelled by its effect: the state changes made before the throw are kept, and nothing after it happens.
- **JavaScript truthiness** of optional string fields is `Text.IsTruthy`.
- **`trim()`** removes the ECMAScript whitespace and line-terminator set.

Facts of the code that shape the model:

- The voice-agent page's `nextBtn` handler does not check the completed flag (app.js:95-112). It relies on `updateUI` having disabled the button. `AgentInterview.Step` applies the same gating, but each handler runs to completion before the next click; the interleavings this excludes are listed under "## Left out".
- Resetting the static page does not clear narration that is already queued (public/app.js:161-165). The chain keeps playing, so `GuidedInterview.OnReset` keeps the queue.
- `src/app/interview/page.js` holds no recording logic: it only shows the stored setup choices. There is nothing of it to model.

Modules: `Wrappers`, `Text`, `NarrationQueue`, `GuidedInterview`, `AgentInterview`, `AnswerLog`, `TranscribeRoute`, `DataAggregator`, `Gemini`, `ReportRoute`, `FormValidation`, `SetupForm`, `ReportMarkdown`, `VitalsSession`, `Pipeline`. There is one file per module.

## Model

| member | source | states |
|---|---|---|
| Text.ContainsIffOccurs | src/lib/gemini.js:33 | `includes` as used for the 429 check holds exactly when the substring occurs at some position |
| Text.JoinSplit | src/components/Results/ReportDisplay.jsx:10-11 | splitting the report on '\n' loses nothing: joining the lines back gives the text |
| Text.SplitJoin | src/app/api/transcribe/route.js:51-53 | one or more transcripts joined with '\n' split back into the same pieces when no piece holds a '\n'; no transcripts join to "", which splits into one empty piece |
| Text.TrimEmptyIffBlank | src/lib/utils.js:16 | `trim()` yields the empty string exactly when every character is whitespace |
| NarrationQueue.Speak | public/app.js:40-42 | a new utterance is chained behind everything already queued; nothing settled changes |
| NarrationQueue.Settle | public/app.js:57-73 | every way an entry can end (played, playback error, autoplay blocked, TTS error, fetch failure) settles the head and releases the next; nothing spoken is lost |
| NarrationQueue.DrainInOrder | public/app.js:40-75 | one ending per queued entry drains the queue, and entries finish in exactly the order spoken, each paired with its own ending |
| NarrationQueue.SettleAllKeepsSpoken | public/app.js:40-75 | settling never adds, drops or reorders spoken utterances |
| GuidedInterview.ShownControl | public/app.js:85-115 | exactly one button is visible per phase, each button in exactly one phase |
| GuidedInterview.OnStart | public/app.js:119-123 | Start moves to READY and queues the greeting behind earlier narration |
| GuidedInterview.OnReady | public/app.js:125-130 | Ready moves to INTERVIEW at question 0 and queues question 0; with no questions the phase and index change but nothing is spoken |
| GuidedInterview.TransitionLine | public/app.js:145 | the random pick reads a transition line, or `undefined` when there are none |
| GuidedInterview.OnNext | public/app.js:137-158 | on the last question, COMPLETE plus the closing line; otherwise a transition then the next question, with the index advanced by one; past the table's end only the transition is spoken |
| GuidedInterview.OnReset | public/app.js:161-165 | Reset returns to LANDING at index 0 and leaves queued narration alone |
| GuidedInterview.Step | public/app.js:119-165 | a click on the visible button runs that phase's handler (Start on landing, Ready, Next during the interview, Reset when complete); a click on a hidden button changes nothing; a settled narration entry settles the queue's head |
| GuidedInterview.StepKeepsInvariant | public/app.js:85-165 | one event keeps the index at 0 before the interview and within the table during it; only Reset lowers the index; Next advances by one or completes |
| GuidedInterview.RunKeepsInvariant | public/app.js:85-165 | along any run of visible-button clicks and narration settlements the invariant holds, and without a reset the index never decreases |
| GuidedInterview.ReachableStatesKeepInvariant | public/app.js:14-15 | every state reachable from the page's initial state satisfies the invariant |
| AgentInterview.QuestionMessage | app.js:128-133 | the message sent for question i is the fixed prefix followed by question i, or by `undefined` when i is out of range |
| AgentInterview.OnStart | app.js:62-92 | only a granted microphone and a started session activate the interview at question 0 and send question 0; any failure changes nothing |
| AgentInterview.OnNext | app.js:95-112 | ignored without an active conversation; otherwise the index advances and the next question, or INTERVIEW_COMPLETE at the end, is sent |
| AgentInterview.OnReset | app.js:115-125 | reset ends the conversation and returns to the idle flags with index -1; when `endSession()` rejects, nothing changes |
| AgentInterview.UpdateUi | app.js:35-59 | Start is enabled exactly when inactive; Next exactly when active and not completed |
| AgentInterview.StepKeepsInvariant | app.js:35-133 | one enabled action keeps the flag/index invariant, and the last message sent is the current question or INTERVIEW_COMPLETE; the sent log only grows at its end |
| AgentInterview.RunKeepsInvariant | app.js:35-133 | with each handler run to completion, every reachable state keeps the invariant, and messages already sent are never altered |
| TranscribeRoute.FirstAlternatives | src/app/api/transcribe/route.js:50-52 | each result's first alternative in order, or the TypeError exactly when some result has no alternative |
| TranscribeRoute.StoredTranscript | src/app/api/transcribe/route.js:77 | an empty transcript is stored as "(No speech detected)"; a non-empty one is stored unchanged |
| TranscribeRoute.Post | src/app/api/transcribe/route.js:5-104 | a 400 exactly when the body has no audio, checked before anything else; the configuration 500 exactly when audio is present and the key is missing; a recogniser rejection is a 500 naming its status text, and an unreadable reply or a thrown fetch a 500 with its message; a result without alternatives or a same-session log without an answer list is a 500 with the TypeError's message; a call with audio, the key and usable results is answered with the transcript, with or without a session id, unless the same session's log has no answer list; a failure or a missing session id leaves the log unchanged; the transcript is the '\n'-join of first alternatives; the same session appends exactly one answer; another session's or no log is replaced by a new document |
| TranscribeRoute.SameSessionAppendsInOrder | src/app/api/transcribe/route.js:81-83 | successive calls for the stored session append their answers in call order and change nothing else |
| TranscribeRoute.NewSessionLogHoldsEachAnswerOnce | src/app/api/transcribe/route.js:63-96 | a new session's calls leave a log of that session holding exactly one answer per call, in order |
| DataAggregator.SafeReadJson | src/lib/dataAggregator.js:5-13 | a readable file yields its content, a missing or corrupt one the default |
| DataAggregator.ReadAnswers | src/lib/dataAggregator.js:21-25 | the answer log is read as present exactly when it parses |
| DataAggregator.Aggregate | src/lib/dataAggregator.js:16-42 | fails with the mismatch message exactly when the log is absent or another session's; otherwise it copies the session header, defaults missing answers to [] and unreadable event files to [] |
| DataAggregator.QuestionText | src/lib/dataAggregator.js:45-55 | ids "1" to "5" and "Intro" get their fixed question texts, and an id gets "Unknown question" exactly when it is not one of those six |
| DataAggregator.QuestionTextAsWritten | src/lib/dataAggregator.js:45-55 | the lookup as written: inherited object member names bypass the fallback |
| DataAggregator.InheritedNameEscapesFallback | src/lib/dataAggregator.js:54 | "toString" is not a table id, yet the lookup as written does not answer "Unknown question" |
| Gemini.Construct | src/lib/gemini.js:5-15 | construction succeeds exactly when the key is configured, and fails with the fixed message otherwise |
| Gemini.Attempts | src/lib/gemini.js:21-45 | between 1 and 5 calls; every call before the last was rate limited; success exactly when the last call replied; failure only after 5 calls or on a non-rate-limit error |
| Gemini.GenerateReport | src/lib/gemini.js:17-46 | the loop agrees with the retry policy, waits 4000, 6000, 9000, 13500 ms in that order, and never falls out of the loop |
| ReportRoute.ClassifyError | src/app/api/generate-report/route.js:39-53 | an error is a non-retryable 404 exactly when its message mentions "Session not found", otherwise a retryable 500 |
| ReportRoute.Post | src/app/api/generate-report/route.js:6-54 | an unreadable body goes to the catch block's classification; 400 exactly for a missing or non-string id; with this session's log, the key set and a replying model the response is the model's text as the report; generated metadata counts the session's answers and stress events; a mismatched session is 404; a missing key or failed generation is 500 |
| ReportRoute.MismatchIsNotFound | src/app/api/generate-report/route.js:42-47 | the aggregator's "Session not found or mismatched" error is classified as the non-retryable 404 |
| ReportRoute.MissingKeyIsRetryable | src/app/api/generate-report/route.js:49-52 | the model client's missing-key error falls through to the retryable 500 |
| ReportRoute.ModelFailureIsRetryable | src/app/api/generate-report/route.js:49-52 | the model client's generation failure falls through to the retryable 500 |
| FormValidation.Validate | src/lib/utils.js:9-28 | one error per failing field, with its message: type and level when falsy, role when absent or blank after trimming; valid exactly when there are no errors |
| FormValidation.ValidateSelections | src/lib/utils.js:9-28 | the corrected check: one error per falsy selection, with the source's messages, never a role error; valid exactly when both selections are truthy |
| FormValidation.SelectionsAgreeWithValidate | src/lib/utils.js:9-28 | the corrected check reports exactly the errors of the original check, minus the role error |
| SetupForm.HandleSubmit | src/app/page.js:24-33 | invalid data shows the validation errors and stores nothing; valid data is stored unchanged and navigates |
| SetupForm.UpdateFormData | src/app/page.js:35-38 | sets exactly one field, keeps the others, and blanks that field's error only when it was showing one |
| SetupForm.PageEditsNeverSetRole | src/app/page.js:17-20 | edits through the page's two inputs never give the form a role |
| SetupForm.SubmitWithoutRoleFails | src/lib/utils.js:16-18 | a form with no role key always gets the role error, stores nothing and does not navigate |
| SetupForm.SubmitAlwaysFailsOnRole | src/app/page.js:24-33 | whatever is selected, submitting shows a role error, stores nothing and stays on the page |
| SetupForm.SubmitSelections | src/app/page.js:24-33 | the submit handler with the corrected check |
| SetupForm.SelectionsSubmit | src/app/page.js:17-38 | with the corrected check, choosing both fields and submitting navigates exactly when both are non-empty, storing just those two choices |
| ReportMarkdown.Closing | src/components/Results/ReportDisplay.jsx:25 | a closing position found is at or after the search start and holds "**" |
| ReportMarkdown.ClosingIsNearest | src/components/Results/ReportDisplay.jsx:25 | the lazy match ends at the first "**" after the opener, with no line terminator before it, and is absent exactly when every later "**" is preceded by a terminator |
| ReportMarkdown.PiecesRestoreText | src/components/Results/ReportDisplay.jsx:25 | the bold rewrite's cut of a line puts back together into the line: nothing is lost, duplicated or reordered |
| ReportMarkdown.StrongPiecesAreLazy | src/components/Results/ReportDisplay.jsx:25 | every bolded span holds no "**" and no line terminator, as the lazy `.*?` demands |
| ReportMarkdown.StepSplitsHtml | src/components/Results/ReportDisplay.jsx:25 | the replacement of a line's rest is the replacement of the piece at its start followed by the replacement after that piece |
| ReportMarkdown.BoldRewrite | src/components/Results/ReportDisplay.jsx:25 | the left-to-right scan produces the pattern replacement |
| ReportMarkdown.RenderLine | src/components/Results/ReportDisplay.jsx:12-27 | h3, h2 and list item exactly for their prefixes, with the prefix removed; a break exactly for an unprefixed blank line; a paragraph holds the bold rewrite of the line |
| ReportMarkdown.RenderMarkdown | src/components/Results/ReportDisplay.jsx:9-29 | one element per '\n'-separated line, in order |
| ReportMarkdown.RenderCoversText | src/components/Results/ReportDisplay.jsx:10-12 | the elements correspond one-to-one with '\n'-free lines that join back into the report |
| ReportMarkdown.SingleLineRendersOnce | src/components/Results/ReportDisplay.jsx:10-12 | a report without line breaks renders as a single element |
| VitalsSession.StartSession | presage_quickstart/hello_vitals.cpp:54-62 | recording starts for the current question with empty lists and a zero sample count; written files are untouched |
| VitalsSession.EndSession | presage_quickstart/hello_vitals.cpp:64-103 | recording stops; with no pulse nothing is written and the question number stays; otherwise one summary for the current number, with the pulse count as sample count, is written and the number advances |
| VitalsSession.ProcessMetrics | presage_quickstart/hello_vitals.cpp:105-134 | outside a recording nothing changes; inside one the newest pulse and breathing rates are collected when present, and one raw row with the next sample index, the current question and those two rates (0 for an absent one) is appended |
| VitalsSession.LowByte | presage_quickstart/hello_vitals.cpp:214 | `& 0xFF` keeps a value in 0..255 congruent to the key code |
| VitalsSession.OnKey | presage_quickstart/hello_vitals.cpp:214-223 | 'q' or Escape quits; 'a' ends the recording (writing its summary) when recording and starts one otherwise; any other key changes nothing |
| VitalsSession.OnFrame | presage_quickstart/hello_vitals.cpp:183-185 | frames reach the manager only while recording |
| VitalsSession.EndSessionKeepsInvariant | presage_quickstart/hello_vitals.cpp:64-103 | ending a recording keeps the summaries numbered 1, 2, ... with the question number the next unused one |
| VitalsSession.ProcessMetricsKeepsInvariant | presage_quickstart/hello_vitals.cpp:105-134 | a frame keeps readings bounded by the sample count and raw rows ordered by question |
| VitalsSession.RunKeepsInvariant | presage_quickstart/hello_vitals.cpp:26-135 | along any run the invariant holds, the question number never decreases, and summaries and raw rows are only appended |
| VitalsSession.SummariesNeverOverwrite | presage_quickstart/hello_vitals.cpp:89-102 | within one run of the program, from a fresh manager, the k-th summary written is for question k + 1, so no summary file name is used twice in that run |
| VitalsSession.RecordingRowsCountFromOne | presage_quickstart/hello_vitals.cpp:125-131 | within one recording, raw rows carry consecutive sample indexes and the recorded question's number |
| VitalsSession.RecordingStartsAtOne | presage_quickstart/hello_vitals.cpp:56 | after starting a recording the raw rows are numbered from 1 |
| Pipeline.AggregateReadsRecordedAnswers | src/lib/dataAggregator.js:27-38 | after a session's recorded answers, aggregating that session succeeds and reads back exactly those answers in order |
| Pipeline.ReportCountsRecordedAnswers | src/app/api/generate-report/route.js:28-37 | with the key set and a replying model, the report for that session is generated and counts one question per recorded call |

## Left out

- Network and platform calls are parameters or outcomes, not modelled code: the TTS proxy, audio playback, the speech recogniser, the agent SDK's microphone and session start, `sendText`, and the model SDK. The voice-agent page's `sendText` is taken always to succeed.
- The prompt builder (`buildInterviewAnalysisPrompt`) is not part of this model. The report route's model call is a function from attempt number to outcome.
- Clock readings (`new Date().toISOString()`, `steady_clock`) are parameters. The waits between retries are recorded as values, not timed.
- `Math.random()` in the transition pick is the `pick` parameter.
- The Next button's two-second disable on the static page is left out. It is timing, and it does not change the state machine's transitions.
- Loading the question and transition tables (`init` on both pages) is left out; the tables are parameters. On the static page a failed load leaves them empty, which the model covers with empty tables. On the voice-agent page a failed load also disables the Start button (app.js:30) until the next `updateUI` call. The model does not represent that disabled button, so its `Step` lets Start through with an empty question list.
- File writes are assumed to succeed (`fs.writeFile`, the C++ `ofstream`s). A failure of `writeFile` in the transcription route would surface as a 500 after the in-memory update. That path is not modelled.
- VitalsSession.EndSession: the averages, the duration and the on-screen text are left out (floating point). A summary keeps the collected lists, from which the averages follow. With pulses but no breathing readings, the source divides by zero and writes NaN, which the model does not represent.
- VitalsSession.SummariesNeverOverwrite: it speaks of one run of the program only. The constructor truncates only the raw log and the events file (hello_vitals.cpp:40,48). A later run starts again at question 1, and its `std::ofstream` (hello_vitals.cpp:89-90) overwrites the earlier run's `question_N_summary.json`. Files left by earlier runs are not modelled.
- VitalsSession.Run: the metrics callback and the video callback both touch `SessionManager`, and nothing locks it (`<mutex>` is included but never used). The model applies events one at a time, so it does not cover a key press that ends a recording while a frame is being processed.
- VitalsSession.Run: `question_counter` and `session_sample_counter` are C++ `int` and would overflow after 2^31 - 1 questions or samples. The model uses unbounded integers.
- AgentInterview.RunKeepsInvariant: each handler is modelled as running to completion before the next click, but app.js handlers give up control at every `await`, and the buttons only change when `updateUI` runs at the end. The invariant does not cover these interleavings:
  - A second Next click during `await conversation.sendText('INTERVIEW_COMPLETE')` (app.js:106) sends INTERVIEW_COMPLETE twice and leaves the index one further past the end.
  - A Reset that finishes during that await is followed by app.js:107 setting the completed flag while the interview is inactive.
  - A second Start click during the awaits at app.js:65-67 opens a second agent session.
- The raw log's timestamp and confidence columns, the HUD and the camera settings are left out; they are display or device details.
- The voice-agent page's `questions.json` (app.js:24-25) is taken to be an array of strings. An element of another type would be interpolated by `${question}` (app.js:129-130), an object as "[object Object]".
- The JSON shapes are idealised: the answer log is a document whose `answers` is either missing or a list, and recogniser results are lists of alternative transcripts. Other malformed shapes are not modelled beyond these cases.
- The other API routes (tts, log-transcript, quick-feedback, start-vitals, vitals), the results page and the layout are not part of this model.

## Findings

| source | as written | input that shows it | evidently intended | confidence | as-written member | corrected member |
|---|---|---|---|---|---|---|
| src/lib/dataAggregator.js:54 | `map[questionId] \|\| "Unknown question"` looks ids up on a plain object, so inherited members such as `toString` are found | questionId "toString" yields a function, not "Unknown question" | only the six table ids have texts; every other id is "Unknown question" | medium, not executed | DataAggregator.InheritedNameEscapesFallback | DataAggregator.QuestionText |
| src/lib/utils.js:16-18 | validation requires a non-blank `role`, but the setup page only has interview-type and experience-level inputs and starts without a role | any selection followed by submit: `{interviewType: "technical", experienceLevel: "mid"}` fails with "Please enter your target role" | the setup form submits once both selections are made | high, not executed | SetupForm.SubmitAlwaysFailsOnRole | SetupForm.SelectionsSubmit |

=== FILE: agent_interview.dfy ===
/**
 * The voice-agent interview page (app.js): an interview is a conversation
 * with a remote agent; the page keeps `isInterviewActive`,
 * `isInterviewCompleted` and a question index that starts at -1, and drives
 * the agent by sending it text messages, modelled here as an outbound log.
 */
module AgentInterview {
  import opened Text

  /** `conversation` is whether a session object is held; `sent` is every message sent, oldest first. */
  datatype State = State(conversation: bool, active: bool, completed: bool, index: int, sent: seq<string>)

  const Initial := State(false, false, false, -1, [])

  const QuestionPrefix := "CURRENT_INTERVIEW_QUESTION: "
  const CompleteMessage := "INTERVIEW_COMPLETE"

  /** How the microphone request and the agent session start turned out. */
  datatype StartOutcome = MicrophoneDenied | SessionFailed | SessionStarted

  /** `sendQuestion(i)`'s message; a missing question renders as `undefined` in the template. */
  function QuestionMessage(questions: seq<string>, i: int): (m: string)
    ensures 0 <= i < |questions| ==> m == QuestionPrefix + questions[i]
    ensures !(0 <= i < |questions|) ==> m == QuestionPrefix + "undefined"
    ensures StartsWith(m, QuestionPrefix)
  {
    QuestionPrefix + (if 0 <= i < |questions| then questions[i] else "undefined")
  }

  /**
   * Start: if the microphone and the agent session both come up, the
   * interview is active and not completed at question 0, and question 0 is
   * sent; a failure leaves every field as it was.
   */
  function OnStart(s: State, questions: seq<string>, outcome: StartOutcome): (r: State)
    ensures outcome != SessionStarted ==> r == s
    ensures outcome == SessionStarted ==>
      && r.conversation && r.active && !r.completed && r.index == 0
      && r.sent == s.sent + [QuestionMessage(questions, 0)]
  {
    if outcome != SessionStarted then s
    else State(true, true, false, 0, s.sent + [QuestionMessage(questions, 0)])
  }

  /**
   * Next: ignored without a conversation or an active interview; otherwise the
   * index advances by one, and the agent gets that question, or
   * `INTERVIEW_COMPLETE` once the index reaches the number of questions.
   */
  function OnNext(s: State, questions: seq<string>): (r: State)
    ensures !s.conversation || !s.active ==> r == s
    ensures s.conversation && s.active ==>
      && r.index == s.index + 1
      && r.conversation == s.conversation && r.active == s.active
      && (r.index < |questions| ==> r.sent == s.sent + [QuestionMessage(questions, r.index)] && r.completed == s.completed)
      && (r.index >= |questions| ==> r.sent == s.sent + [CompleteMessage] && r.completed)
  {
    if !s.conversation || !s.active then s
    else
      var i := s.index + 1;
      if i < |questions| then s.(index := i, sent := s.sent + [QuestionMessage(questions, i)])
      else s.(index := i, sent := s.sent + [CompleteMessage], completed := true)
  }

  /**
   * Reset: end any conversation and return to the idle state; the log of sent
   * messages stays. `ended` is whether `endSession()` resolved: when it
   * rejects, the handler stops before touching any flag. Without a
   * conversation there is nothing to end.
   */
  function OnReset(s: State, ended: bool): (r: State)
    ensures s.conversation && !ended ==> r == s
    ensures !s.conversation || ended ==> !r.conversation && !r.active && !r.completed && r.index == -1 && r.sent == s.sent
  {
    if s.conversation && !ended then s
    else State(false, false, false, -1, s.sent)
  }

  datatype Buttons = Buttons(startEnabled: bool, nextEnabled: bool)

  /** `updateUI`: the not-active case is decided first, then the completed case. */
  function UpdateUi(s: State): (b: Buttons)
    ensures b.nextEnabled <==> s.active && !s.completed
    ensures b.startEnabled <==> !s.active
  {
    if !s.active then Buttons(true, false)
    else if s.completed then Buttons(false, false)
    else Buttons(false, true)
  }

  datatype Action = Start(outcome: StartOutcome) | Next | Reset(ended: bool)

  /** A click on a disabled button does nothing; the reset button is always enabled. */
  function Step(s: State, a: Action, questions: seq<string>): State {
    match a
    case Start(o) => if UpdateUi(s).startEnabled then OnStart(s, questions, o) else s
    case Next => if UpdateUi(s).nextEnabled then OnNext(s, questions) else s
    case Reset(ended) => OnReset(s, ended)
  }

  function Run(s: State, actions: seq<Action>, questions: seq<string>): State
    decreases |actions|
  {
    if |actions| == 0 then s else Run(Step(s, actions[0], questions), actions[1..], questions)
  }

  /** The index a completed interview rests at: one past the last question, or 1 with none. */
  function CompletedIndex(questions: seq<string>): int {
    if |questions| == 0 then 1 else |questions|
  }

  /**
   * What the page's flags say about the index and the last message sent:
   * idle means index -1; an interview in progress has just sent the current
   * question; a completed one has just sent `INTERVIEW_COMPLETE`.
   */
  predicate Inv(s: State, questions: seq<string>) {
    && (s.conversation <==> s.active)
    && (!s.active ==> s.index == -1 && !s.completed)
    && (s.active && !s.completed ==>
          0 <= s.index && (s.index < |questions| || s.index == 0)
          && |s.sent| > 0 && s.sent[|s.sent| - 1] == QuestionMessage(questions, s.index))
    && (s.completed ==>
          s.index == CompletedIndex(questions)
          && |s.sent| > 0 && s.sent[|s.sent| - 1] == CompleteMessage)
  }

  lemma StepKeepsInvariant(s: State, a: Action, questions: seq<string>)
    requires Inv(s, questions)
    ensures Inv(Step(s, a, questions), questions)
    ensures |Step(s, a, questions).sent| >= |s.sent|
    ensures Step(s, a, questions).sent[..|s.sent|] == s.sent
  {
  }

  /**
   * Every state reachable by clicking enabled buttons satisfies the invariant,
   * and the outbound log only ever grows at its end.
   */
  lemma {:induction false} RunKeepsInvariant(s: State, actions: seq<Action>, questions: seq<string>)
    requires Inv(s, questions)
    ensures Inv(Run(s, actions, questions), questions)
    ensures |Run(s, actions, questions).sent| >= |s.sent|
    ensures Run(s, actions, questions).sent[..|s.sent|] == s.sent
    decreases |actions|
  {
    if |actions| > 0 {
      var s1 := Step(s, actions[0], questions);
      StepKeepsInvariant(s, actions[0], questions);
      RunKeepsInvariant(s1, actions[1..], questions);
      var r := Run(s, actions, questions);
      assert r.sent[..|s.sent|] == r.sent[..|s1.sent|][..|s.sent|];
    }
  }
}

=== FILE: answer_log.dfy ===
/**
 * The persisted answer log (interview_answers.json) shared by the
 * transcription route, which writes it, and the report aggregator, which
 * reads it. Files are in-memory values: absent, unreadable, or holding a
 * parsed document.
 */
module AnswerLog {
  import opened Wrappers

  /** One recorded answer; `questionId` is absent when the client sent none. */
  datatype Answer = Answer(questionId: Option<string>, transcript: string, timestamp: string)

  /**
   * The log document. `answers` is optional because a document read back
   * from disk need not have the field.
   */
  datatype Document = Document(
    sessionId: string,
    startTime: string,
    interviewType: string,
    experienceLevel: string,
    answers: Option<seq<Answer>>)

  /** A JSON file as the server finds it: missing, not parseable, or parsed. */
  datatype StoredFile<T> = Missing | Corrupt | Holds(value: T)
}

=== FILE: data_aggregator.dfy ===
/**
 * The report's data source (src/lib/dataAggregator.js): tolerant JSON file
 * reads, the session check and shape of the aggregated data, and the table of
 * question texts.
 */
module DataAggregator {
  import opened Wrappers
  import opened AnswerLog

  const SessionMismatchMessage := "Session not found or mismatched"
  const UnknownQuestion := "Unknown question"

  /** One entry of the vitals or stress-event files, carried through unread as its JSON text. */
  type RawEntry = string

  datatype Session = Session(sessionId: string, startTime: string, interviewType: string, experienceLevel: string)

  datatype Aggregated = Aggregated(session: Session, answers: seq<Answer>, vitals: seq<RawEntry>, stressEvents: seq<RawEntry>)

  /** `safeReadJSON(path, default)`: the parsed content, or `default` on any read or parse failure. */
  function SafeReadJson<T>(file: StoredFile<T>, default: T): (r: T)
    ensures file.Holds? ==> r == file.value
    ensures !file.Holds? ==> r == default
  {
    match file
    case Holds(v) => v
    case _ => default
  }

  /** The answers file read with the default `null`, as an optional document. */
  function ReadAnswers(file: StoredFile<Document>): (r: Option<Document>)
    ensures r.Some? <==> file.Holds?
    ensures r.Some? ==> r.value == file.value
  {
    SafeReadJson(match file case Holds(d) => Holds(Some(d)) case Missing => Missing case Corrupt => Corrupt, None)
  }

  /**
   * `aggregateInterviewData(sessionId)`: fails unless the answers file holds
   * this session's document; otherwise the session header, the answers (empty
   * when the document has none) and the two event lists (empty when their
   * files cannot be read).
   */
  function Aggregate(sessionId: string, answersFile: StoredFile<Document>,
                     vitalsFile: StoredFile<seq<RawEntry>>, stressFile: StoredFile<seq<RawEntry>>)
    : (r: Result<Aggregated, string>)
    ensures r.Err? <==> !(answersFile.Holds? && answersFile.value.sessionId == sessionId)
    ensures r.Err? ==> r.error == SessionMismatchMessage
    ensures r.Ok? ==>
      && r.value.session == Session(sessionId, answersFile.value.startTime,
                                    answersFile.value.interviewType, answersFile.value.experienceLevel)
      && r.value.answers == answersFile.value.answers.GetOr([])
      && r.value.vitals == (if vitalsFile.Holds? then vitalsFile.value else [])
      && r.value.stressEvents == (if stressFile.Holds? then stressFile.value else [])
  {
    var answersData := ReadAnswers(answersFile);
    var vitalsData := SafeReadJson(vitalsFile, []);
    var stressData := SafeReadJson(stressFile, []);
    if answersData.None? || answersData.value.sessionId != sessionId then Err(SessionMismatchMessage)
    else
      var d := answersData.value;
      Ok(Aggregated(
        Session(d.sessionId, d.startTime, d.interviewType, d.experienceLevel),
        d.answers.GetOr([]),
        vitalsData,
        stressData))
  }

  /** The ids the question table knows. */
  predicate IsTableId(id: string) {
    id in {"1", "2", "3", "4", "5", "Intro"}
  }

  /**
   * `getQuestionText(questionId)` with the lookup restricted to the table's
   * own entries: the six known ids map to their questions and every other id
   * to "Unknown question".
   */
  function QuestionText(id: string): (text: string)
    ensures text == UnknownQuestion <==> !IsTableId(id)
    ensures id == "1" ==> text == "Tell me a little about yourself."
    ensures id == "2" ==> text == "What motivated you to apply for this role?"
    ensures id == "3" ==> text == "Can you describe a challenge you faced and how you handled it?"
    ensures id == "4" ==> text == "Tell me about a project or experience you are proud of."
    ensures id == "5" ==> text == "Is there anything else you would like us to know about you?"
    ensures id == "Intro" ==> text == "Are you ready to start your interview?"
  {
    match id
    case "1" => "Tell me a little about yourself."
    case "2" => "What motivated you to apply for this role?"
    case "3" => "Can you describe a challenge you faced and how you handled it?"
    case "4" => "Tell me about a project or experience you are proud of."
    case "5" => "Is there anything else you would like us to know about you?"
    case "Intro" => "Are you ready to start your interview?"
    case _ => UnknownQuestion
  }

  /**
   * The names every plain JavaScript object inherits from `Object.prototype`;
   * `map[name]` on an object literal finds each of them, and every one is truthy.
   */
  predicate IsInheritedName(id: string) {
    id in {"constructor", "hasOwnProperty", "isPrototypeOf", "propertyIsEnumerable",
           "toLocaleString", "toString", "valueOf", "__proto__",
           "__defineGetter__", "__defineSetter__", "__lookupGetter__", "__lookupSetter__"}
  }

  /** What `map[questionId] || "Unknown question"` evaluates to on the object literal. */
  datatype Lookup = Text(text: string) | InheritedMember(name: string)

  /** `getQuestionText` as written: an object-literal lookup, which also sees inherited members. */
  function QuestionTextAsWritten(id: string): (r: Lookup)
    ensures !IsInheritedName(id) ==> r == Text(QuestionText(id))
    ensures IsInheritedName(id) ==> r == InheritedMember(id)
  {
    if IsTableId(id) then Text(QuestionText(id))
    else if IsInheritedName(id) then InheritedMember(id)
    else Text(UnknownQuestion)
  }

  /** The id "toString" is not in the table, yet the lookup as written does not fall back. */
  lemma InheritedNameEscapesFallback()
    ensures !IsTableId("toString")
    ensures QuestionTextAsWritten("toString") != Text(UnknownQuestion)
  {
  }
}

=== FILE: form_validation.dfy ===
/**
 * `validatePreInterviewForm` (src/lib/utils.js): the setup form's fields are
 * a JavaScript object, modelled as a map from field name to string value; a
 * missing key is `undefined`.
 */
module FormValidation {
  import opened Wrappers
  import opened Text

  const InterviewTypeField := "interviewType"
  const RoleField := "role"
  const ExperienceLevelField := "experienceLevel"

  const InterviewTypeError := "Please select an interview type"
  const RoleError := "Please enter your target role"
  const ExperienceLevelError := "Please select your experience level"

  type FormData = map<string, string>

  datatype Validation = Validation(isValid: bool, errors: map<string, string>)

  /** `data[field]`, absent when the object has no such key. */
  function Field(data: FormData, field: string): Option<string> {
    if field in data then Some(data[field]) else None
  }

  /**
   * One error per failing field: interview type and experience level fail
   * when falsy, the role when absent or blank after trimming; the form is
   * valid exactly when there are no errors.
   */
  function Validate(data: FormData): (v: Validation)
    ensures v.isValid <==> |v.errors| == 0
    ensures v.errors.Keys <= {InterviewTypeField, RoleField, ExperienceLevelField}
    ensures InterviewTypeField in v.errors <==> !IsTruthy(Field(data, InterviewTypeField))
    ensures RoleField in v.errors <==> RoleField !in data || IsBlank(data[RoleField])
    ensures ExperienceLevelField in v.errors <==> !IsTruthy(Field(data, ExperienceLevelField))
    ensures InterviewTypeField in v.errors ==> v.errors[InterviewTypeField] == InterviewTypeError
    ensures RoleField in v.errors ==> v.errors[RoleField] == RoleError
    ensures ExperienceLevelField in v.errors ==> v.errors[ExperienceLevelField] == ExperienceLevelError
  {
    var role := Field(data, RoleField);
    TrimEmptyIffBlank(role.GetOr(""));
    var e1: map<string, string> := if !IsTruthy(Field(data, InterviewTypeField)) then map[InterviewTypeField := InterviewTypeError] else map[];
    var e2 := if !IsTruthy(role) || |Trim(role.value)| == 0 then e1[RoleField := RoleError] else e1;
    var e3 := if !IsTruthy(Field(data, ExperienceLevelField)) then e2[ExperienceLevelField := ExperienceLevelError] else e2;
    Validation(|e3.Keys| == 0, e3)
  }

  /**
   * The check the setup page can pass: the two selections it collects, with
   * the same messages, and no role requirement.
   */
  function ValidateSelections(data: FormData): (v: Validation)
    ensures v.isValid <==> |v.errors| == 0
    ensures v.errors.Keys <= {InterviewTypeField, ExperienceLevelField}
    ensures InterviewTypeField in v.errors <==> !IsTruthy(Field(data, InterviewTypeField))
    ensures ExperienceLevelField in v.errors <==> !IsTruthy(Field(data, ExperienceLevelField))
    ensures InterviewTypeField in v.errors ==> v.errors[InterviewTypeField] == InterviewTypeError
    ensures ExperienceLevelField in v.errors ==> v.errors[ExperienceLevelField] == ExperienceLevelError
    ensures v.isValid <==> IsTruthy(Field(data, InterviewTypeField)) && IsTruthy(Field(data, ExperienceLevelField))
  {
    var e1: map<string, string> := if !IsTruthy(Field(data, InterviewTypeField)) then map[InterviewTypeField := InterviewTypeError] else map[];
    var e2 := if !IsTruthy(Field(data, ExperienceLevelField)) then e1[ExperienceLevelField := ExperienceLevelError] else e1;
    Validation(|e2.Keys| == 0, e2)
  }

  lemma FieldNamesDistinct()
    ensures InterviewTypeField != RoleField && ExperienceLevelField != RoleField
    ensures InterviewTypeField != ExperienceLevelField
  {
    assert |InterviewTypeField| == 13 && |RoleField| == 4 && |ExperienceLevelField| == 15;
  }

  /** The selections check reports exactly the errors `Validate` reports on every field but the role. */
  lemma SelectionsAgreeWithValidate(data: FormData)
    ensures ValidateSelections(data).errors == Validate(data).errors - {RoleField}
  {
    FieldNamesDistinct();
    var sel := ValidateSelections(data).errors;
    var all := Validate(data).errors - {RoleField};
    assert InterviewTypeField in sel <==> InterviewTypeField in all;
    assert ExperienceLevelField in sel <==> ExperienceLevelField in all;
    assert sel.Keys == all.Keys;
    assert InterviewTypeField in sel ==> sel[InterviewTypeField] == all[InterviewTypeField];
    assert ExperienceLevelField in sel ==> sel[ExperienceLevelField] == all[ExperienceLevelField];
  }
}

=== FILE: gemini.dfy ===
/**
 * The report generator client (src/lib/gemini.js): construction needs an API
 * key; `generateReport` calls the model up to five times, waiting and
 * retrying only after rate-limit (429) errors, with the wait growing by half
 * each time.
 */
module Gemini {
  import opened Wrappers
  import opened Text

  const MaxRetries := 5
  const InitialDelay := 4000
  const ModelName := "gemini-2.5-flash"
  /** The client's two error messages: the missing key, and a failed generation. */
  const MissingKeyMessage := "GEMINI_API_KEY" + " not configured"
  const FailureMessage := "Failed to generate " + "report with Gemini " + "AI (Quota Exceeded " + "or Error)"

  /** The waits, in milliseconds, before the second, third, fourth and fifth attempt. */
  const Waits: seq<int> := [4000, 6000, 9000, 13500]

  datatype Client = Client(model: string)

  /** The constructor: it throws when the key is absent from the environment. */
  function Construct(keyConfigured: bool): (r: Result<Client, string>)
    ensures r.Ok? <==> keyConfigured
    ensures r.Err? ==> r.error == MissingKeyMessage
    ensures r.Ok? ==> r.value.model == ModelName
  {
    if keyConfigured then Ok(Client(ModelName)) else Err(MissingKeyMessage)
  }

  /** One model call: the reply's text, or an error with an optional message and status. */
  datatype CallOutcome = Replied(text: string) | Raised(message: Option<string>, status: Option<int>)

  /** `error.message?.includes('429') || error.status === 429` */
  predicate IsRateLimit(o: CallOutcome) {
    && o.Raised?
    && ((o.message.Some? && Contains(o.message.value, "429")) || o.status == Some(429))
  }

  /** The result of `generateReport`, with the number of model calls made and the waits taken. */
  datatype Generation = Generation(result: Result<string, string>, calls: nat, waits: seq<int>)

  /**
   * The retry policy as a recursive definition: `respond(a)` is what the model
   * does on attempt `a` (1-based).
   */
  function Attempts(respond: nat -> CallOutcome, attempt: nat): (g: Generation)
    requires 1 <= attempt <= MaxRetries
    ensures attempt <= g.calls <= MaxRetries
    ensures g.waits == Waits[..g.calls - 1]
    ensures forall a | attempt <= a < g.calls :: IsRateLimit(respond(a))
    ensures g.result.Ok? <==> respond(g.calls).Replied?
    ensures g.result.Ok? ==> g.result.value == respond(g.calls).text
    ensures g.result.Err? ==> g.result.error == FailureMessage && (g.calls == MaxRetries || !IsRateLimit(respond(g.calls)))
    decreases MaxRetries - attempt
  {
    var o := respond(attempt);
    if o.Replied? then Generation(Ok(o.text), attempt, Waits[..attempt - 1])
    else if IsRateLimit(o) && attempt < MaxRetries then Attempts(respond, attempt + 1)
    else Generation(Err(FailureMessage), attempt, Waits[..attempt - 1])
  }

  /** The whole policy, starting from the first attempt. */
  function Generate(respond: nat -> CallOutcome): Generation {
    Attempts(respond, 1)
  }

  /**
   * `generateReport`: the retry loop. It returns the first reply, fails at once
   * on any error other than a rate limit, and fails after the fifth attempt if
   * every one was rate limited; it never runs off the end of the loop.
   */
  method GenerateReport(respond: nat -> CallOutcome) returns (result: Result<string, string>, calls: nat, waits: seq<int>)
    ensures Generation(result, calls, waits) == Generate(respond)
    ensures 1 <= calls <= MaxRetries && |waits| == calls - 1
    ensures forall k | 0 <= k < |waits| :: waits[k] == Waits[k]
    ensures forall a | 1 <= a < calls :: IsRateLimit(respond(a))
    ensures result.Ok? <==> respond(calls).Replied?
    ensures result.Err? ==> result.error == FailureMessage
  {
    var attempt := 1;
    var delay := InitialDelay;
    waits := [];
    while attempt <= MaxRetries
      invariant 1 <= attempt <= MaxRetries
      invariant delay == (Waits + [20250])[attempt - 1]
      invariant waits == Waits[..attempt - 1]
      invariant Attempts(respond, attempt) == Generate(respond)
      decreases MaxRetries - attempt
    {
      var outcome := respond(attempt);
      if outcome.Replied? {
        return Ok(outcome.text), attempt, waits;
      }
      if IsRateLimit(outcome) && attempt < MaxRetries {
        waits := waits + [delay];
        delay := delay * 3 / 2;
        attempt := attempt + 1;
        continue;
      }
      return Err(FailureMessage), attempt, waits;
    }
    assert false;
  }
}

=== FILE: guided_interview.dfy ===
/**
 * The phase machine of the static interview page (public/app.js): a closed
 * set of phases, one visible button per phase, and the click handlers that
 * move between phases and speak into the narration queue.
 */
module GuidedInterview {
  import opened NarrationQueue

  datatype Phase = Landing | Ready | Interview | Complete

  datatype Control = StartButton | ReadyButton | NextButton | ResetButton

  /** The phase, the current question's index, and the narration chain. */
  datatype State = State(phase: Phase, index: nat, narration: Queue)

  const Greeting := "Hello, are you ready to start your interview?"
  const Closing := "Thank you for completing your practice interview. Your analysis will be generated shortly."

  const Initial := State(Landing, 0, Empty)

  /** The one button `updateUI` leaves visible in each phase. */
  function ShownControl(p: Phase): (c: Control)
    ensures c == StartButton <==> p == Landing
    ensures c == ReadyButton <==> p == Ready
    ensures c == NextButton <==> p == Interview
    ensures c == ResetButton <==> p == Complete
  {
    match p
    case Landing => StartButton
    case Ready => ReadyButton
    case Interview => NextButton
    case Complete => ResetButton
  }

  /** Start: move to READY and speak the greeting. */
  function OnStart(s: State): (r: State)
    ensures r.phase == Ready && r.index == s.index
    ensures r.narration.finished == s.narration.finished
    ensures r.narration.pending == s.narration.pending + [Line(Greeting)]
  {
    s.(phase := Ready, narration := Speak(s.narration, Line(Greeting)))
  }

  /**
   * Ready: move to INTERVIEW at question 0 and speak it. With no questions
   * loaded, `updateUI` throws reading the missing question's text after the
   * phase and index are set, so nothing is spoken.
   */
  function OnReady(s: State, questions: seq<string>): (r: State)
    ensures r.phase == Interview && r.index == 0
    ensures r.narration.finished == s.narration.finished
    ensures |questions| > 0 ==> r.narration.pending == s.narration.pending + [Line(questions[0])]
    ensures |questions| == 0 ==> r.narration == s.narration
  {
    if |questions| == 0 then s.(phase := Interview, index := 0)
    else s.(phase := Interview, index := 0, narration := Speak(s.narration, Line(questions[0])))
  }

  /**
   * The line `transitions[Math.floor(Math.random() * transitions.length)]`:
   * `pick` is the random index, which is 0 when there are no transitions and
   * the read yields `undefined`.
   */
  predicate ValidPick(pick: nat, transitions: seq<string>) {
    pick < |transitions| || pick == 0
  }

  function TransitionLine(transitions: seq<string>, pick: nat): (u: Utterance)
    requires ValidPick(pick, transitions)
    ensures |transitions| > 0 ==> u == Line(transitions[pick])
    ensures |transitions| == 0 ==> u == MissingLine
  {
    if pick < |transitions| then Line(transitions[pick]) else MissingLine
  }

  /**
   * Next: on the last question, move to COMPLETE and speak the closing line;
   * otherwise speak a transition, then the next question, and advance by one.
   * Past the end of the table the next question is `undefined` and reading its
   * text throws after the transition was spoken, leaving phase and index as
   * they were.
   */
  function OnNext(s: State, questions: seq<string>, transitions: seq<string>, pick: nat): (r: State)
    requires ValidPick(pick, transitions)
    ensures r.narration.finished == s.narration.finished
    ensures s.index == |questions| - 1 ==>
      && r.phase == Complete && r.index == s.index
      && r.narration.pending == s.narration.pending + [Line(Closing)]
    ensures s.index + 1 < |questions| ==>
      && r.phase == s.phase && r.index == s.index + 1
      && r.narration.pending == s.narration.pending + [TransitionLine(transitions, pick), Line(questions[s.index + 1])]
    ensures s.index >= |questions| ==>
      && r.phase == s.phase && r.index == s.index
      && r.narration.pending == s.narration.pending + [TransitionLine(transitions, pick)]
  {
    if s.index == |questions| - 1 then
      s.(phase := Complete, narration := Speak(s.narration, Line(Closing)))
    else
      var bridged := Speak(s.narration, TransitionLine(transitions, pick));
      if s.index + 1 < |questions| then
        s.(index := s.index + 1, narration := Speak(bridged, Line(questions[s.index + 1])))
      else
        s.(narration := bridged)
  }

  /** Reset: back to LANDING at index 0; narration already queued keeps playing. */
  function OnReset(s: State): (r: State)
    ensures r.phase == Landing && r.index == 0
    ensures r.narration == s.narration
  {
    s.(phase := Landing, index := 0)
  }

  /** Something that happens to the page: a button click, or the narration head settling. */
  datatype Event = Click(control: Control, pick: nat) | NarrationSettled(ending: Ending)

  /**
   * A click reaches its handler only when its button is the visible one.
   * `questions` are the question texts and `transitions` the bridging lines,
   * both as loaded.
   */
  function Step(s: State, e: Event, questions: seq<string>, transitions: seq<string>): (r: State)
    requires e.Click? ==> ValidPick(e.pick, transitions)
    ensures e.NarrationSettled? ==> r == s.(narration := Settle(s.narration, e.ending))
    ensures e.Click? && e.control != ShownControl(s.phase) ==> r == s
    ensures e.Click? && e.control == StartButton && s.phase == Landing ==> r == OnStart(s)
    ensures e.Click? && e.control == ReadyButton && s.phase == Ready ==> r == OnReady(s, questions)
    ensures e.Click? && e.control == NextButton && s.phase == Interview ==> r == OnNext(s, questions, transitions, e.pick)
    ensures e.Click? && e.control == ResetButton && s.phase == Complete ==> r == OnReset(s)
  {
    match e
    case NarrationSettled(ending) => s.(narration := Settle(s.narration, ending))
    case Click(c, pick) =>
      if c != ShownControl(s.phase) then s
      else match c
        case StartButton => OnStart(s)
        case ReadyButton => OnReady(s, questions)
        case NextButton => OnNext(s, questions, transitions, pick)
        case ResetButton => OnReset(s)
  }

  function Run(s: State, events: seq<Event>, questions: seq<string>, transitions: seq<string>): State
    requires forall k | 0 <= k < |events| :: events[k].Click? ==> ValidPick(events[k].pick, transitions)
    decreases |events|
  {
    if |events| == 0 then s else Run(Step(s, events[0], questions, transitions), events[1..], questions, transitions)
  }

  /** Before the interview the index rests at 0; from then on it indexes a real question. */
  predicate Inv(s: State, n: nat) {
    && (s.phase == Landing || s.phase == Ready ==> s.index == 0)
    && (s.phase == Interview || s.phase == Complete ==> s.index < n)
  }

  /** The click that fired is a reset. */
  predicate IsReset(e: Event) {
    e.Click? && e.control == ResetButton
  }

  /**
   * One event keeps the invariant; only a reset can lower the index, and a
   * Next click inside the interview advances it by exactly one.
   */
  lemma StepKeepsInvariant(s: State, e: Event, questions: seq<string>, transitions: seq<string>)
    requires |questions| > 0 && Inv(s, |questions|)
    requires e.Click? ==> ValidPick(e.pick, transitions)
    ensures Inv(Step(s, e, questions, transitions), |questions|)
    ensures !IsReset(e) ==> Step(s, e, questions, transitions).index >= s.index
    ensures (s.phase == Interview && e.Click? && e.control == NextButton) ==>
      if s.index + 1 < |questions| then
        Step(s, e, questions, transitions).phase == Interview && Step(s, e, questions, transitions).index == s.index + 1
      else
        Step(s, e, questions, transitions).phase == Complete && Step(s, e, questions, transitions).index == s.index
  {
  }

  /**
   * From any state satisfying the invariant, with a non-empty question table
   * and only visible buttons clickable, the invariant holds after every run,
   * and the index never decreases unless a reset fires.
   */
  lemma {:induction false} RunKeepsInvariant(s: State, events: seq<Event>, questions: seq<string>, transitions: seq<string>)
    requires |questions| > 0 && Inv(s, |questions|)
    requires forall k | 0 <= k < |events| :: events[k].Click? ==> ValidPick(events[k].pick, transitions)
    ensures Inv(Run(s, events, questions, transitions), |questions|)
    ensures (forall k | 0 <= k < |events| :: !IsReset(events[k])) ==> Run(s, events, questions, transitions).index >= s.index
    decreases |events|
  {
    if |events| > 0 {
      StepKeepsInvariant(s, events[0], questions, transitions);
      RunKeepsInvariant(Step(s, events[0], questions, transitions), events[1..], questions, transitions);
      if forall k | 0 <= k < |events| :: !IsReset(events[k]) {
        assert !IsReset(events[0]);
        assert forall k | 0 <= k < |events[1..]| :: !IsReset(events[1..][k]) by {
          forall k | 0 <= k < |events[1..]| ensures !IsReset(events[1..][k]) {
            assert events[1..][k] == events[k + 1];
          }
        }
      }
    }
  }

  /** The page starts in the invariant, so every reachable state satisfies it. */
  lemma ReachableStatesKeepInvariant(events: seq<Event>, questions: seq<string>, transitions: seq<string>)
    requires |questions| > 0
    requires forall k | 0 <= k < |events| :: events[k].Click? ==> ValidPick(events[k].pick, transitions)
    ensures Inv(Run(Initial, events, questions, transitions), |questions|)
  {
    RunKeepsInvariant(Initial, events, questions, transitions);
  }
}

=== FILE: narration_queue.dfy ===
/**
 * The narration engine of the static interview page (`speak` in
 * public/app.js): every call chains one entry onto a single promise, so
 * entries play strictly one after another, and every way an entry can end
 * settles it, so a failing entry never holds up the ones behind it.
 */
module NarrationQueue {

  /** One `speak` argument: a line of text, or `undefined` (an out-of-range table read). */
  datatype Utterance = Line(text: string) | MissingLine

  /** How one entry's step of the promise chain ended. */
  datatype Ending =
    | PlayedToEnd       // `audio.onended`
    | PlaybackError     // `audio.onerror`
    | AutoplayBlocked   // `audio.play()` rejected
    | TtsRejected       // the speech proxy answered with a non-OK status
    | TtsUnreachable    // the fetch to the speech proxy threw

  /** `pending`: entries not yet settled, head first; `finished`: settled entries, oldest first. */
  datatype Queue = Queue(pending: seq<Utterance>, finished: seq<(Utterance, Ending)>)

  const Empty := Queue([], [])

  /** The utterances of a list of settled entries, in order. */
  function Utterances(done: seq<(Utterance, Ending)>): (us: seq<Utterance>)
    ensures |us| == |done|
    ensures forall k | 0 <= k < |done| :: us[k] == done[k].0
  {
    if |done| == 0 then [] else Utterances(done[..|done| - 1]) + [done[|done| - 1].0]
  }

  /** Everything ever spoken into the queue, settled entries first. */
  function Spoken(q: Queue): seq<Utterance> {
    Utterances(q.finished) + q.pending
  }

  /** `speak(u)`: chain one entry behind everything already queued. */
  function Speak(q: Queue, u: Utterance): (r: Queue)
    ensures r.finished == q.finished
    ensures Spoken(r) == Spoken(q) + [u]
    ensures |r.pending| == |q.pending| + 1 && r.pending[|q.pending|] == u
  {
    Queue(q.pending + [u], q.finished)
  }

  /**
   * The entry at the head of the chain reaches its end, whichever way it ends;
   * with nothing queued there is nothing in flight and nothing changes.
   */
  function Settle(q: Queue, e: Ending): (r: Queue)
    ensures Spoken(r) == Spoken(q)
    ensures |q.pending| > 0 ==> r.finished == q.finished + [(q.pending[0], e)] && r.pending == q.pending[1..]
    ensures |q.pending| == 0 ==> r == q
  {
    if |q.pending| == 0 then q
    else
      var r := Queue(q.pending[1..], q.finished + [(q.pending[0], e)]);
      assert Utterances(r.finished) == Utterances(q.finished) + [q.pending[0]];
      assert [q.pending[0]] + q.pending[1..] == q.pending;
      r
  }

  /** Settle the head once per ending, in order. */
  function SettleAll(q: Queue, endings: seq<Ending>): Queue
    decreases |endings|
  {
    if |endings| == 0 then q else SettleAll(Settle(q, endings[0]), endings[1..])
  }

  /** Pairs each entry with the way it ended. */
  function Zip(us: seq<Utterance>, es: seq<Ending>): (z: seq<(Utterance, Ending)>)
    requires |us| == |es|
    ensures |z| == |us|
  {
    if |us| == 0 then [] else [(us[0], es[0])] + Zip(us[1..], es[1..])
  }

  /** The k-th pair is the k-th entry with the k-th ending. */
  lemma {:induction false} ZipPairs(us: seq<Utterance>, es: seq<Ending>, k: int)
    requires |us| == |es| && 0 <= k < |us|
    ensures Zip(us, es)[k] == (us[k], es[k])
    decreases k
  {
    if k > 0 {
      ZipPairs(us[1..], es[1..], k - 1);
    }
  }

  /**
   * However the entries end (played, errored, blocked, or failed to fetch),
   * one ending per queued entry drains the queue, and the entries finish in
   * exactly the order they were spoken, each with its own ending.
   */
  lemma {:induction false} DrainInOrder(q: Queue, endings: seq<Ending>)
    requires |endings| == |q.pending|
    ensures SettleAll(q, endings) == Queue([], q.finished + Zip(q.pending, endings))
    decreases |endings|
  {
    if |endings| > 0 {
      var head := (q.pending[0], endings[0]);
      var q1 := Queue(q.pending[1..], q.finished + [head]);
      assert Settle(q, endings[0]) == q1;
      DrainInOrder(q1, endings[1..]);
      var z1 := Zip(q1.pending, endings[1..]);
      assert Zip(q.pending, endings) == [head] + z1;
      assert q.finished + [head] + z1 == q.finished + ([head] + z1);
    }
  }

  /** Settling never adds, drops or reorders what was spoken. */
  lemma {:induction false} SettleAllKeepsSpoken(q: Queue, endings: seq<Ending>)
    ensures Spoken(SettleAll(q, endings)) == Spoken(q)
    decreases |endings|
  {
    if |endings| > 0 {
      SettleAllKeepsSpoken(Settle(q, endings[0]), endings[1..]);
    }
  }
}

=== FILE: pipeline.dfy ===
/**
 * How the routes fit together: the answer log the transcription route writes
 * is the one the aggregator reads and the report route summarises.
 */
module Pipeline {
  import opened Wrappers
  import opened AnswerLog
  import TranscribeRoute
  import DataAggregator
  import ReportRoute
  import Gemini

  /**
   * After a session's recorded answers, aggregating that session finds the
   * log and reads back exactly those answers, in order, whatever log existed
   * before.
   */
  lemma AggregateReadsRecordedAnswers(stored: StoredFile<Document>, xs: seq<TranscribeRoute.Exchange>, sessionId: string,
                                      vitalsFile: StoredFile<seq<DataAggregator.RawEntry>>,
                                      stressFile: StoredFile<seq<DataAggregator.RawEntry>>)
    requires sessionId != "" && |xs| > 0
    requires !(stored.Holds? && stored.value.sessionId == sessionId)
    requires forall k | 0 <= k < |xs| :: TranscribeRoute.Recordable(xs[k], sessionId)
    ensures var r := DataAggregator.Aggregate(sessionId, TranscribeRoute.PostAll(stored, xs), vitalsFile, stressFile);
      r.Ok? && r.value.answers == TranscribeRoute.AnswersOf(xs, sessionId)
  {
    TranscribeRoute.NewSessionLogHoldsEachAnswerOnce(stored, xs, sessionId);
  }

  /**
   * With the model key set and the model answering, the report for that
   * session is generated and counts one analysed question per recorded call.
   */
  lemma ReportCountsRecordedAnswers(stored: StoredFile<Document>, xs: seq<TranscribeRoute.Exchange>, sessionId: string,
                                    vitalsFile: StoredFile<seq<DataAggregator.RawEntry>>,
                                    stressFile: StoredFile<seq<DataAggregator.RawEntry>>,
                                    respond: nat -> Gemini.CallOutcome, generatedAt: string)
    requires sessionId != "" && |xs| > 0
    requires !(stored.Holds? && stored.value.sessionId == sessionId)
    requires forall k | 0 <= k < |xs| :: TranscribeRoute.Recordable(xs[k], sessionId)
    requires Gemini.Generate(respond).result.Ok?
    ensures var r := ReportRoute.Post(ReportRoute.BodyParsed(ReportRoute.StringValue(sessionId)),
                                      TranscribeRoute.PostAll(stored, xs), vitalsFile, stressFile,
                                      true, respond, generatedAt);
      r.Generated? && r.metadata.questionsAnalyzed == |xs|
  {
    TranscribeRoute.NewSessionLogHoldsEachAnswerOnce(stored, xs, sessionId);
  }
}

=== FILE: report_markdown.dfy ===
/**
 * The report page's mini-markdown renderer (`renderMarkdown` in
 * src/components/Results/ReportDisplay.jsx): one element per line, chosen by
 * the line's prefix, with `**x**` pairs in paragraphs rewritten to
 * `<strong>x</strong>` by the global lazy pattern `/\*\*(.*?)\*\*\/g`.
 */
module ReportMarkdown {
  import opened Wrappers
  import opened Text

  const OpenTag := "<strong>"
  const CloseTag := "</strong>"

  datatype Element =
    | Heading3(text: string)
    | Heading2(text: string)
    | ListItem(text: string)
    | Paragraph(html: string)
    | LineBreak

  /** The characters the pattern's `.` does not match. */
  predicate IsLineTerminator(c: char) {
    c == '\n' || c == '\r' || c == '\U{2028}' || c == '\U{2029}'
  }

  /** `s` has "**" at index `j`. */
  predicate MarkerAt(s: string, j: int) {
    0 <= j && j + 2 <= |s| && s[j] == '*' && s[j + 1] == '*'
  }

  /**
   * Where the lazy `(.*?)\*\*` starting at index `j` ends: the first "**" at
   * or after `j`, provided no line terminator comes before it.
   */
  function Closing(s: string, j: nat): (r: Option<nat>)
    requires j <= |s|
    ensures r.Some? ==> j <= r.value && MarkerAt(s, r.value)
    decreases |s| - j
  {
    if j + 2 > |s| then None
    else if s[j] == '*' && s[j + 1] == '*' then Some(j)
    else if IsLineTerminator(s[j]) then None
    else Closing(s, j + 1)
  }

  /**
   * The match is lazy and single-line: no "**" and no line terminator comes
   * before the partner found, and there is no partner exactly when every
   * later "**" has a line terminator before it.
   */
  lemma {:induction false} ClosingIsNearest(s: string, j: nat)
    requires j <= |s|
    ensures Closing(s, j).Some? ==>
      forall k | j <= k < Closing(s, j).value :: !MarkerAt(s, k) && !IsLineTerminator(s[k])
    ensures Closing(s, j).None? ==>
      forall k | j <= k && MarkerAt(s, k) :: exists t | j <= t < k :: IsLineTerminator(s[t])
    decreases |s| - j
  {
    if j + 2 <= |s| && !(s[j] == '*' && s[j + 1] == '*') && !IsLineTerminator(s[j]) {
      ClosingIsNearest(s, j + 1);
    }
  }

  /** One match-or-copy step of the rewrite: a copied character, or a "**" pair and the text it encloses. */
  datatype Piece = Plain(c: char) | Strong(inner: string)

  /** Where a match opened by a "**" at `i` closes, if one opens there. */
  function MatchEnd(s: string, i: nat): (r: Option<nat>)
    requires i <= |s|
    ensures r.Some? ==> i + 2 <= r.value && r.value + 2 <= |s| && MarkerAt(s, i) && MarkerAt(s, r.value)
  {
    if MarkerAt(s, i) then Closing(s, i + 2) else None
  }

  /**
   * How the global pattern cuts `s[i..]`: at each position a "**" with a
   * partner opens a match running to the nearest partner; anything else is
   * copied and the search moves one character on.
   */
  function Pieces(s: string, i: nat): (ps: seq<Piece>)
    requires i <= |s|
    decreases |s| - i
  {
    if i == |s| then []
    else if MatchEnd(s, i).Some? then
      var j := MatchEnd(s, i).value;
      [Strong(s[i + 2..j])] + Pieces(s, j + 2)
    else [Plain(s[i])] + Pieces(s, i + 1)
  }

  /** A piece's replacement: the character itself, or `<strong>$1</strong>`. */
  function HtmlOf(p: Piece): string {
    match p
    case Plain(c) => [c]
    case Strong(t) => OpenTag + t + CloseTag
  }

  /** The markdown a piece was cut from. */
  function MarkdownOf(p: Piece): string {
    match p
    case Plain(c) => [c]
    case Strong(t) => "**" + t + "**"
  }

  /** The replacement text of the pieces, in order. */
  function Html(ps: seq<Piece>): string
    decreases |ps|
  {
    if |ps| == 0 then "" else HtmlOf(ps[0]) + Html(ps[1..])
  }

  /** The markdown the pieces were cut from, in order. */
  function Markdown(ps: seq<Piece>): string
    decreases |ps|
  {
    if |ps| == 0 then "" else MarkdownOf(ps[0]) + Markdown(ps[1..])
  }

  /** `line.replace(/\*\*(.*?)\*\*\/g, '<strong>$1</strong>')` */
  function Bold(line: string): string {
    Html(Pieces(line, 0))
  }

  /** At a "**" with a partner at `j`, the cut yields one bolded span and resumes after the partner. */
  lemma PiecesAtMatch(s: string, i: nat, j: nat)
    requires i < |s| && MatchEnd(s, i) == Some(j)
    ensures j + 2 <= |s| && |Pieces(s, i)| > 0
    ensures Pieces(s, i)[0] == Strong(s[i + 2..j]) && Pieces(s, i)[1..] == Pieces(s, j + 2)
  {
    assert Pieces(s, i) == [Strong(s[i + 2..j])] + Pieces(s, j + 2);
  }

  /** Anywhere else, the cut yields the character and moves one on. */
  lemma PiecesAtCopy(s: string, i: nat)
    requires i < |s| && MatchEnd(s, i).None?
    ensures |Pieces(s, i)| > 0
    ensures Pieces(s, i)[0] == Plain(s[i]) && Pieces(s, i)[1..] == Pieces(s, i + 1)
  {
    assert Pieces(s, i) == [Plain(s[i])] + Pieces(s, i + 1);
  }

  /** A matched span and what follows it make up the rest of the line. */
  lemma SpanSplit(s: string, i: nat, j: nat)
    requires i + 2 <= j && j + 2 <= |s| && MarkerAt(s, i) && MarkerAt(s, j)
    ensures s[i..] == "**" + s[i + 2..j] + "**" + s[j + 2..]
  {
    assert s[i..i + 2] == "**" && s[j..j + 2] == "**";
    assert s[i..] == s[i..i + 2] + s[i + 2..j] + s[j..j + 2] + s[j + 2..];
  }

  /** Unfolds `Markdown` once. */
  lemma MarkdownCons(ps: seq<Piece>)
    requires |ps| > 0
    ensures Markdown(ps) == MarkdownOf(ps[0]) + Markdown(ps[1..])
  {
  }

  lemma RestoreAtMatch(s: string, i: nat, j: nat)
    requires i < |s| && MatchEnd(s, i) == Some(j)
    requires j + 2 <= |s| && Markdown(Pieces(s, j + 2)) == s[j + 2..]
    ensures Markdown(Pieces(s, i)) == s[i..]
  {
    PiecesAtMatch(s, i, j);
    MarkdownCons(Pieces(s, i));
    SpanSplit(s, i, j);
  }

  /** A suffix is its first character followed by the rest. */
  lemma SliceCons(s: string, i: nat)
    requires i < |s|
    ensures s[i..] == [s[i]] + s[i + 1..]
  {
  }

  lemma RestoreAtCopy(s: string, i: nat)
    requires i < |s| && MatchEnd(s, i).None?
    requires Markdown(Pieces(s, i + 1)) == s[i + 1..]
    ensures Markdown(Pieces(s, i)) == s[i..]
  {
    PiecesAtCopy(s, i);
    MarkdownCons(Pieces(s, i));
    assert MarkdownOf(Plain(s[i])) == [s[i]];
    SliceCons(s, i);
  }

  /** The cut loses nothing: the pieces put back as markdown are the text. */
  lemma {:induction false} PiecesRestoreText(s: string, i: nat)
    requires i <= |s|
    ensures Markdown(Pieces(s, i)) == s[i..]
    decreases |s| - i
  {
    if i == |s| {
      assert Pieces(s, i) == [];
    } else {
      if MatchEnd(s, i).Some? {
        var j := MatchEnd(s, i).value;
        PiecesRestoreText(s, j + 2);
        RestoreAtMatch(s, i, j);
      } else {
        PiecesRestoreText(s, i + 1);
        RestoreAtCopy(s, i);
      }
    }
  }

  /** A bolded span of the lazy, single-line match: no "**" and no line terminator inside. */
  predicate Lazy(p: Piece) {
    p.Strong? ==> !Contains(p.inner, "**") && forall t | 0 <= t < |p.inner| :: !IsLineTerminator(p.inner[t])
  }

  /** The span a match at `i` encloses is lazy. */
  lemma MatchIsLazy(s: string, i: nat, j: nat)
    requires i < |s| && MatchEnd(s, i) == Some(j)
    ensures Lazy(Strong(s[i + 2..j]))
  {
    var mid := s[i + 2..j];
    ClosingIsNearest(s, i + 2);
    NoMarkerInside(s, i + 2, j);
    forall t | 0 <= t < |mid| ensures !IsLineTerminator(mid[t]) {
      assert mid[t] == s[i + 2 + t];
    }
  }

  /** Every bolded span of the cut is the lazy, single-line match. */
  lemma {:induction false} StrongPiecesAreLazy(s: string, i: nat)
    requires i <= |s|
    ensures forall k | 0 <= k < |Pieces(s, i)| :: Lazy(Pieces(s, i)[k])
    decreases |s| - i
  {
    if i < |s| {
      var ps := Pieces(s, i);
      if MatchEnd(s, i).Some? {
        var j := MatchEnd(s, i).value;
        StrongPiecesAreLazy(s, j + 2);
        PiecesAtMatch(s, i, j);
        MatchIsLazy(s, i, j);
        LazyCons(ps);
      } else {
        StrongPiecesAreLazy(s, i + 1);
        PiecesAtCopy(s, i);
        LazyCons(ps);
      }
    }
  }

  /** Laziness of a list follows from its head and its tail. */
  lemma LazyCons(ps: seq<Piece>)
    requires |ps| > 0 && Lazy(ps[0])
    requires forall k | 0 <= k < |ps[1..]| :: Lazy(ps[1..][k])
    ensures forall k | 0 <= k < |ps| :: Lazy(ps[k])
  {
    forall k | 0 < k < |ps| ensures Lazy(ps[k]) {
      assert ps[k] == ps[1..][k - 1];
    }
  }

  /** The text before the nearest partner holds no "**". */
  lemma NoMarkerInside(s: string, a: nat, j: nat)
    requires a <= j <= |s|
    requires forall k | a <= k < j :: !MarkerAt(s, k)
    requires MarkerAt(s, j)
    ensures !Contains(s[a..j], "**")
  {
    var mid := s[a..j];
    forall k ensures !OccursAt(mid, "**", k) {
      if 0 <= k && k + 2 <= |mid| {
        assert !MarkerAt(s, a + k);
        assert mid[k..k + 2][0] == s[a + k] && mid[k..k + 2][1] == s[a + k + 1];
      }
    }
    ContainsIffOccurs(mid, "**");
  }

  /** At a "**" with a partner at `j`, the rewrite emits the tagged enclosed text and resumes after the partner. */
  lemma HtmlAtMatch(s: string, i: nat, j: nat)
    requires i < |s| && MatchEnd(s, i) == Some(j)
    ensures j + 2 <= |s| && Html(Pieces(s, i)) == HtmlOf(Strong(s[i + 2..j])) + Html(Pieces(s, j + 2))
  {
    PiecesAtMatch(s, i, j);
  }

  /** Anywhere else, the rewrite copies one character and moves on. */
  lemma HtmlAtCopy(s: string, i: nat)
    requires i < |s|
    requires MatchEnd(s, i).None?
    ensures Html(Pieces(s, i)) == HtmlOf(Plain(s[i])) + Html(Pieces(s, i + 1))
  {
    PiecesAtCopy(s, i);
  }

  /**
   * One step of the scan at position `i`: the replacement of the piece that
   * starts there, and where the next piece starts.
   */
  function Step(line: string, i: nat): (step: (string, nat))
    requires i < |line|
    ensures i < step.1 <= |line|
  {
    match MatchEnd(line, i)
    case Some(j) => (HtmlOf(Strong(line[i + 2..j])), j + 2)
    case None => (HtmlOf(Plain(line[i])), i + 1)
  }

  /** The rewrite of the rest of the line is the step's replacement followed by the rewrite after it. */
  lemma StepSplitsHtml(line: string, i: nat)
    requires i < |line|
    ensures Html(Pieces(line, i)) == Step(line, i).0 + Html(Pieces(line, Step(line, i).1))
  {
    match MatchEnd(line, i)
    case Some(j) =>
      assert Step(line, i) == (HtmlOf(Strong(line[i + 2..j])), j + 2);
      HtmlAtMatch(line, i, j);
    case None =>
      assert Step(line, i) == (HtmlOf(Plain(line[i])), i + 1);
      HtmlAtCopy(line, i);
  }

  /**
   * The rewrite as a left-to-right scan over the line, emitting each piece's
   * replacement as it is found.
   */
  method BoldRewrite(line: string) returns (html: string)
    ensures html == Bold(line)
  {
    html := "";
    var i: nat := 0;
    while i < |line|
      invariant i <= |line|
      invariant html + Html(Pieces(line, i)) == Bold(line)
      decreases |line| - i
    {
      var (piece, next) := Step(line, i);
      StepSplitsHtml(line, i);
      assert html + (piece + Html(Pieces(line, next))) == (html + piece) + Html(Pieces(line, next));
      html, i := html + piece, next;
    }
  }

  /**
   * One line's element. The two header prefixes exclude each other and the
   * list prefix, so each prefixed line gets exactly one kind of element, with
   * the prefix cut off and no bold rewrite; other lines are a break when blank
   * and a rewritten paragraph otherwise.
   */
  function RenderLine(line: string): (e: Element)
    ensures e.Heading3? <==> StartsWith(line, "### ")
    ensures e.Heading2? <==> StartsWith(line, "## ")
    ensures e.ListItem? <==> StartsWith(line, "- ")
    ensures e.Heading3? ==> "### " + e.text == line
    ensures e.Heading2? ==> "## " + e.text == line
    ensures e.ListItem? ==> "- " + e.text == line
    ensures e.LineBreak? <==> !e.Heading3? && !e.Heading2? && !e.ListItem? && IsBlank(line)
    ensures e.Paragraph? ==> e.html == Bold(line)
  {
    TrimEmptyIffBlank(line);
    if StartsWith(line, "### ") then
      assert line[0] == line[..4][0] && line[2] == line[..4][2];
      assert line == line[..4] + line[4..];
      Heading3(line[4..])
    else if StartsWith(line, "## ") then
      assert line[0] == line[..3][0] && line[2] == line[..3][2];
      assert |line| >= 4 ==> line[2] == line[..4][2];
      assert line == line[..3] + line[3..];
      Heading2(line[3..])
    else if StartsWith(line, "- ") then
      assert line[0] == line[..2][0];
      assert |line| >= 3 ==> line[0] == line[..3][0];
      assert |line| >= 4 ==> line[0] == line[..4][0];
      assert line == line[..2] + line[2..];
      ListItem(line[2..])
    else if |Trim(line)| > 0 then Paragraph(Bold(line))
    else LineBreak
  }

  /** `renderMarkdown(text)`: the text split on '\n', one element per line, in order. */
  function RenderMarkdown(text: string): (elements: seq<Element>)
    ensures |elements| == |Split(text)|
    ensures forall k | 0 <= k < |elements| :: elements[k] == RenderLine(Split(text)[k])
  {
    var lines := Split(text);
    seq(|lines|, k requires 0 <= k < |lines| => RenderLine(lines[k]))
  }

  /**
   * The element list covers the report exactly: its k-th element is built from
   * the k-th line, the lines joined by '\n' are the text, and no line is
   * merged with or split across others.
   */
  lemma RenderCoversText(text: string)
    ensures |RenderMarkdown(text)| == |Split(text)|
    ensures Join(Split(text)) == text
    ensures forall k | 0 <= k < |Split(text)| :: '\n' !in Split(text)[k]
  {
    JoinSplit(text);
  }

  /** A text without line breaks renders as exactly one element. */
  lemma SingleLineRendersOnce(line: string)
    requires '\n' !in line
    ensures RenderMarkdown(line) == [RenderLine(line)]
  {
    SplitSingle(line);
  }
}

=== FILE: report_route.dfy ===
/**
 * `POST /api/generate-report` (src/app/api/generate-report/route.js):
 * validate the session id, aggregate the session's data, have the model
 * write the report, and sort failures into a non-retryable "not found" class
 * and a retryable everything-else class.
 */
module ReportRoute {
  import opened Wrappers
  import opened Text
  import opened AnswerLog
  import DataAggregator
  import Gemini

  const NotFoundMarker := "Session not found"

  /** The JSON kinds `sessionId` can arrive as. */
  datatype SessionIdField = Absent | StringValue(s: string) | OtherValue

  /** `request.json()` fails with a message, or yields the `sessionId` field. */
  datatype ReportBody = BodyUnreadable(message: string) | BodyParsed(sessionId: SessionIdField)

  datatype Metadata = Metadata(sessionId: string, generatedAt: string, questionsAnalyzed: nat, stressEventsDetected: nat)

  datatype ReportResponse =
    | Generated(report: string, metadata: Metadata)   // 200
    | InvalidSessionId                                // 400 'Invalid session ID'
    | SessionNotFound                                 // 404, retryable: false
    | GenerationFailed                                // 500, retryable: true

  function Status(r: ReportResponse): int {
    match r
    case Generated(_, _) => 200
    case InvalidSessionId => 400
    case SessionNotFound => 404
    case GenerationFailed => 500
  }

  /** The `retryable` flag of an error response; absent on the 200 and 400 responses. */
  function Retryable(r: ReportResponse): Option<bool> {
    match r
    case SessionNotFound => Some(false)
    case GenerationFailed => Some(true)
    case _ => None
  }

  /** `!sessionId || typeof sessionId !== 'string'` fails exactly on what this rejects. */
  predicate ValidSessionId(f: SessionIdField) {
    f.StringValue? && f.s != ""
  }

  /** The catch block: an error whose message mentions "Session not found" is a 404, any other a 500. */
  function ClassifyError(message: string): (r: ReportResponse)
    ensures r == SessionNotFound <==> Contains(message, NotFoundMarker)
    ensures r == GenerationFailed <==> !Contains(message, NotFoundMarker)
    ensures Retryable(r) == Some(!Contains(message, NotFoundMarker))
  {
    if Contains(message, NotFoundMarker) then SessionNotFound else GenerationFailed
  }

  /**
   * The route. The three files are the aggregator's inputs, `keyConfigured`
   * the model key in the environment, `respond` the model's behaviour on each
   * attempt, and `generatedAt` the clock reading. The prompt sent to the model
   * is not modelled.
   */
  function Post(body: ReportBody, answersFile: StoredFile<Document>,
                vitalsFile: StoredFile<seq<DataAggregator.RawEntry>>, stressFile: StoredFile<seq<DataAggregator.RawEntry>>,
                keyConfigured: bool, respond: nat -> Gemini.CallOutcome, generatedAt: string): (r: ReportResponse)
    ensures body.BodyParsed? && !ValidSessionId(body.sessionId) ==> r == InvalidSessionId
    ensures r == InvalidSessionId ==> body.BodyParsed? && !ValidSessionId(body.sessionId)
    // A body that cannot be read goes straight to the catch block.
    ensures body.BodyUnreadable? ==> r == ClassifyError(body.message)
    // With this session's log, the key set and a model that replies, the reply is the report.
    ensures (body.BodyParsed? && ValidSessionId(body.sessionId)
      && answersFile.Holds? && answersFile.value.sessionId == body.sessionId.s
      && keyConfigured && Gemini.Generate(respond).result.Ok?) ==>
      r == Generated(Gemini.Generate(respond).result.value,
                     Metadata(body.sessionId.s, generatedAt,
                              |answersFile.value.answers.GetOr([])|,
                              |SafeStress(stressFile)|))
    ensures r.Generated? ==>
      && body.BodyParsed? && ValidSessionId(body.sessionId)
      && answersFile.Holds? && answersFile.value.sessionId == body.sessionId.s
      && r.metadata == Metadata(body.sessionId.s, generatedAt,
                                |answersFile.value.answers.GetOr([])|,
                                |SafeStress(stressFile)|)
    // A stored log from another session, or none at all, is a non-retryable 404.
    ensures (body.BodyParsed? && ValidSessionId(body.sessionId)
      && !(answersFile.Holds? && answersFile.value.sessionId == body.sessionId.s)) ==> r == SessionNotFound
    // Failures of the model client are retryable 500s.
    ensures (body.BodyParsed? && ValidSessionId(body.sessionId)
      && answersFile.Holds? && answersFile.value.sessionId == body.sessionId.s
      && (!keyConfigured || Gemini.Generate(respond).result.Err?)) ==> r == GenerationFailed
  {
    match body
    case BodyUnreadable(m) => ClassifyError(m)
    case BodyParsed(field) =>
      if !ValidSessionId(field) then InvalidSessionId
      else
        var sessionId := field.s;
        match DataAggregator.Aggregate(sessionId, answersFile, vitalsFile, stressFile)
        case Err(m) =>
          MismatchIsNotFound();
          ClassifyError(m)
        case Ok(data) =>
          match Gemini.Construct(keyConfigured)
          case Err(m) =>
            MissingKeyIsRetryable();
            ClassifyError(m)
          case Ok(_) =>
            var g := Gemini.Generate(respond);
            match g.result
            case Err(m) =>
              ModelFailureIsRetryable();
              ClassifyError(m)
            case Ok(report) =>
              Generated(report, Metadata(sessionId, generatedAt, |data.answers|, |data.stressEvents|))
  }

  /** The stress events the aggregator reports for a stress file. */
  function SafeStress(stressFile: StoredFile<seq<DataAggregator.RawEntry>>): seq<DataAggregator.RawEntry> {
    DataAggregator.SafeReadJson(stressFile, [])
  }

  /** The aggregator's mismatch error is a 404 that must not be retried. */
  lemma MismatchIsNotFound()
    ensures ClassifyError(DataAggregator.SessionMismatchMessage) == SessionNotFound
  {
    assert StartsWith(DataAggregator.SessionMismatchMessage, NotFoundMarker);
  }

  /** A missing model key is a retryable 500. */
  lemma MissingKeyIsRetryable()
    ensures ClassifyError(Gemini.MissingKeyMessage) == GenerationFailed
  {
    assert 'S' !in Gemini.MissingKeyMessage;
    MissingFirstChar(Gemini.MissingKeyMessage, NotFoundMarker);
  }

  /** A failed generation (quota or any other model error) is a retryable 500. */
  lemma ModelFailureIsRetryable()
    ensures ClassifyError(Gemini.FailureMessage) == GenerationFailed
  {
    assert 'S' !in Gemini.FailureMessage;
    MissingFirstChar(Gemini.FailureMessage, NotFoundMarker);
  }
}

=== FILE: setup_form.dfy ===
/**
 * The setup page's form state (src/app/page.js): the field values, the
 * per-field error messages, the submit handler that either shows the
 * validation errors or stores the setup and moves on, and the field updater.
 */
module SetupForm {
  import opened Wrappers
  import opened FormValidation

  datatype FormState = FormState(formData: FormData, errors: map<string, string>)

  /** The page mounts with an empty interview type and experience level, no role, and no errors. */
  const Initial := FormState(map[InterviewTypeField := "", ExperienceLevelField := ""], map[])

  /** `stored` is the `interviewSetup` entry of local storage; `navigated` is the move to the interview page. */
  datatype Submission = Submission(state: FormState, stored: Option<FormData>, navigated: bool)

  /**
   * `handleSubmit`: on invalid data the errors become the validation's errors
   * and nothing is stored; on valid data the form data is stored as it is.
   */
  function HandleSubmit(s: FormState, stored: Option<FormData>): (r: Submission)
    ensures !Validate(s.formData).isValid ==>
      r.state == s.(errors := Validate(s.formData).errors) && r.stored == stored && !r.navigated
    ensures Validate(s.formData).isValid ==>
      r.state == s && r.stored == Some(s.formData) && r.navigated
  {
    var validation := Validate(s.formData);
    if !validation.isValid then Submission(s.(errors := validation.errors), stored, false)
    else Submission(s, Some(s.formData), true)
  }

  /**
   * `updateFormData(field, value)`: sets that one field, and blanks that
   * field's error only when it was showing one.
   */
  function UpdateFormData(s: FormState, field: string, value: string): (r: FormState)
    ensures field in r.formData && r.formData[field] == value
    ensures forall f | f in s.formData && f != field :: f in r.formData && r.formData[f] == s.formData[f]
    ensures r.formData.Keys == s.formData.Keys + {field}
    ensures field in s.errors && s.errors[field] != "" ==> r.errors == s.errors[field := ""]
    ensures !(field in s.errors && s.errors[field] != "") ==> r.errors == s.errors
  {
    var data := s.formData[field := value];
    if field in s.errors && s.errors[field] != "" then FormState(data, s.errors[field := ""])
    else FormState(data, s.errors)
  }

  /** The page's own inputs only ever update these two fields. */
  predicate IsPageField(field: string) {
    field == InterviewTypeField || field == ExperienceLevelField
  }

  function ApplyUpdates(s: FormState, updates: seq<(string, string)>): FormState
    decreases |updates|
  {
    if |updates| == 0 then s else ApplyUpdates(UpdateFormData(s, updates[0].0, updates[0].1), updates[1..])
  }

  /** Edits through the page's inputs never give the form a role. */
  lemma {:induction false} PageEditsNeverSetRole(s: FormState, updates: seq<(string, string)>)
    requires RoleField !in s.formData
    requires forall k | 0 <= k < |updates| :: IsPageField(updates[k].0)
    ensures RoleField !in ApplyUpdates(s, updates).formData
    decreases |updates|
  {
    if |updates| > 0 {
      assert IsPageField(updates[0].0);
      assert forall k | 0 <= k < |updates[1..]| :: IsPageField(updates[1..][k].0) by {
        forall k | 0 <= k < |updates[1..]| ensures IsPageField(updates[1..][k].0) {
          assert updates[1..][k] == updates[k + 1];
        }
      }
      PageEditsNeverSetRole(UpdateFormData(s, updates[0].0, updates[0].1), updates[1..]);
    }
  }

  /** A form without a role never passes: the role error shows and nothing is stored. */
  lemma SubmitWithoutRoleFails(s: FormState, stored: Option<FormData>)
    requires RoleField !in s.formData
    ensures RoleField in HandleSubmit(s, stored).state.errors
    ensures HandleSubmit(s, stored).stored == stored
    ensures !HandleSubmit(s, stored).navigated
  {
    assert RoleField in Validate(s.formData).errors;
  }

  /**
   * Whatever the user selects, submitting the setup form fails with a role
   * error and stores nothing: the page has no role input, yet validation
   * requires a role.
   */
  lemma SubmitAlwaysFailsOnRole(updates: seq<(string, string)>, stored: Option<FormData>)
    requires forall k | 0 <= k < |updates| :: IsPageField(updates[k].0)
    ensures RoleField in HandleSubmit(ApplyUpdates(Initial, updates), stored).state.errors
    ensures HandleSubmit(ApplyUpdates(Initial, updates), stored).stored == stored
    ensures !HandleSubmit(ApplyUpdates(Initial, updates), stored).navigated
  {
    assert RoleField !in Initial.formData;
    PageEditsNeverSetRole(Initial, updates);
    SubmitWithoutRoleFails(ApplyUpdates(Initial, updates), stored);
  }

  /** `handleSubmit` with the check the page's own fields can satisfy. */
  function SubmitSelections(s: FormState, stored: Option<FormData>): (r: Submission)
    ensures !ValidateSelections(s.formData).isValid ==>
      r.state == s.(errors := ValidateSelections(s.formData).errors) && r.stored == stored && !r.navigated
    ensures ValidateSelections(s.formData).isValid ==>
      r.state == s && r.stored == Some(s.formData) && r.navigated
  {
    var validation := ValidateSelections(s.formData);
    if !validation.isValid then Submission(s.(errors := validation.errors), stored, false)
    else Submission(s, Some(s.formData), true)
  }

  /**
   * With the corrected check, choosing an interview type and an experience
   * level and submitting moves on exactly when both choices are non-empty,
   * and stores just those two choices.
   */
  lemma SelectionsSubmit(interviewType: string, level: string, stored: Option<FormData>)
    ensures var s := ApplyUpdates(Initial, [(InterviewTypeField, interviewType), (ExperienceLevelField, level)]);
      && (SubmitSelections(s, stored).navigated <==> interviewType != "" && level != "")
      && (SubmitSelections(s, stored).navigated ==>
            SubmitSelections(s, stored).stored == Some(map[InterviewTypeField := interviewType, ExperienceLevelField := level]))
  {
    var updates := [(InterviewTypeField, interviewType), (ExperienceLevelField, level)];
    var s1 := UpdateFormData(Initial, InterviewTypeField, interviewType);
    var s2 := UpdateFormData(s1, ExperienceLevelField, level);
    assert ApplyUpdates(Initial, updates) == ApplyUpdates(s1, updates[1..]);
    assert ApplyUpdates(s1, updates[1..]) == ApplyUpdates(s2, []);
    assert s2.formData == map[InterviewTypeField := interviewType, ExperienceLevelField := level];
  }
}

=== FILE: text.dfy ===
/**
 * The JavaScript string operations the application relies on, over `string`
 * (a sequence of Unicode scalar values): `startsWith`, `includes`,
 * `split('\n')`, `join('\n')`, `trim()` and truthiness of optional strings.
 */
module Text {
  import opened Wrappers

  /** A string-valued field is truthy in JavaScript when present and non-empty. */
  predicate IsTruthy(s: Option<string>) {
    s.Some? && s.value != ""
  }

  /** `s.startsWith(p)` */
  predicate StartsWith(s: string, p: string) {
    |p| <= |s| && s[..|p|] == p
  }

  /** `sub` occurs in `s` starting at index `i`. */
  predicate OccursAt(s: string, sub: string, i: int) {
    0 <= i && i + |sub| <= |s| && s[i..i + |sub|] == sub
  }

  /** `s.includes(sub)`, scanning start positions left to right. */
  predicate Contains(s: string, sub: string)
    decreases |s|
  {
    StartsWith(s, sub) || (|s| > 0 && Contains(s[1..], sub))
  }

  /** A scan that succeeds found a real occurrence. */
  lemma {:induction false} ContainsHasOccurrence(s: string, sub: string) returns (i: nat)
    requires Contains(s, sub)
    ensures OccursAt(s, sub, i)
    decreases |s|
  {
    if StartsWith(s, sub) {
      i := 0;
    } else {
      var j := ContainsHasOccurrence(s[1..], sub);
      assert s[j + 1..j + 1 + |sub|] == s[1..][j..j + |sub|];
      i := j + 1;
    }
  }

  /** Every occurrence is found by the scan. */
  lemma {:induction false} OccurrenceIsContained(s: string, sub: string, i: int)
    requires OccursAt(s, sub, i)
    ensures Contains(s, sub)
    decreases i
  {
    if i > 0 {
      assert s[1..][i - 1..i - 1 + |sub|] == s[i..i + |sub|];
      OccurrenceIsContained(s[1..], sub, i - 1);
    }
  }

  /** The scan agrees with the positional definition of an occurrence. */
  lemma ContainsIffOccurs(s: string, sub: string)
    ensures Contains(s, sub) <==> exists i :: OccursAt(s, sub, i)
  {
    if Contains(s, sub) {
      var i := ContainsHasOccurrence(s, sub);
    }
    if exists i :: OccursAt(s, sub, i) {
      var i :| OccursAt(s, sub, i);
      OccurrenceIsContained(s, sub, i);
    }
  }

  /** A string lacking the first character of a non-empty `sub` cannot contain `sub`. */
  lemma {:induction false} MissingFirstChar(s: string, sub: string)
    requires |sub| > 0 && sub[0] !in s
    ensures !Contains(s, sub)
    decreases |s|
  {
    if |s| > 0 {
      assert s[0] in s;
      if |sub| <= |s| {
        assert s[..|sub|][0] != sub[0];
      }
      MissingFirstChar(s[1..], sub);
    }
  }

  /** `xs.join('\n')` */
  function Join(xs: seq<string>): string
    decreases |xs|
  {
    if |xs| == 0 then ""
    else if |xs| == 1 then xs[0]
    else xs[0] + "\n" + Join(xs[1..])
  }

  /** `s.split('\n')`: never empty; `""` splits to `[""]`. */
  function Split(s: string): (lines: seq<string>)
    ensures |lines| >= 1
    ensures forall k | 0 <= k < |lines| :: '\n' !in lines[k]
    decreases |s|
  {
    if |s| == 0 then [""]
    else if s[0] == '\n' then [""] + Split(s[1..])
    else
      var rest := Split(s[1..]);
      [[s[0]] + rest[0]] + rest[1..]
  }

  /** Joining the pieces of a split restores the text exactly. */
  lemma {:induction false} JoinSplit(s: string)
    ensures Join(Split(s)) == s
    decreases |s|
  {
    if |s| == 0 {
    } else if s[0] == '\n' {
      JoinSplit(s[1..]);
      assert Split(s)[1..] == Split(s[1..]);
    } else {
      var rest := Split(s[1..]);
      JoinSplit(s[1..]);
      var lines := Split(s);
      assert lines[1..] == rest[1..];
      if |rest| == 1 {
        assert lines == [[s[0]] + rest[0]];
        assert Join(rest) == rest[0];
      } else {
        assert Join(rest) == rest[0] + "\n" + Join(rest[1..]);
        assert Join(lines) == [s[0]] + rest[0] + "\n" + Join(rest[1..]);
      }
    }
  }

  /** A line free of '\n' followed by a '\n' splits off as one piece. */
  lemma {:induction false} SplitPrefix(a: string, rest: string)
    requires '\n' !in a
    ensures Split(a + "\n" + rest) == [a] + Split(rest)
    decreases |a|
  {
    if |a| == 0 {
      assert a + "\n" + rest == "\n" + rest;
      assert ("\n" + rest)[1..] == rest;
    } else {
      SplitPrefix(a[1..], rest);
      assert (a + "\n" + rest)[1..] == a[1..] + "\n" + rest;
      assert [a[0]] + a[1..] == a;
    }
  }

  /** A string free of '\n' is a single piece. */
  lemma {:induction false} SplitSingle(a: string)
    requires '\n' !in a
    ensures Split(a) == [a]
    decreases |a|
  {
    if |a| > 0 {
      SplitSingle(a[1..]);
      assert [a[0]] + a[1..] == a;
    }
  }

  /**
   * Splitting a join of one or more '\n'-free lines gives the lines back; the
   * join of no lines is "", which splits into the one empty line.
   */
  lemma {:induction false} SplitJoin(xs: seq<string>)
    requires forall k | 0 <= k < |xs| :: '\n' !in xs[k]
    ensures |xs| >= 1 ==> Split(Join(xs)) == xs
    ensures |xs| == 0 ==> Split(Join(xs)) == [""]
    decreases |xs|
  {
    if |xs| == 0 {
    } else if |xs| == 1 {
      SplitSingle(xs[0]);
    } else {
      SplitJoin(xs[1..]);
      SplitPrefix(xs[0], Join(xs[1..]));
    }
  }

  /**
   * The characters `String.prototype.trim` removes: ECMAScript's WhiteSpace
   * (including every Unicode space separator) and LineTerminator.
   */
  predicate IsJsWhitespace(c: char) {
    || c == '\t' || c == '\n' || c == '\U{000B}' || c == '\U{000C}' || c == '\r'
    || c == ' ' || c == '\U{00A0}' || c == '\U{1680}'
    || ('\U{2000}' <= c <= '\U{200A}')
    || c == '\U{2028}' || c == '\U{2029}' || c == '\U{202F}' || c == '\U{205F}'
    || c == '\U{3000}' || c == '\U{FEFF}'
  }

  /** Every character of `s` is whitespace. */
  predicate IsBlank(s: string) {
    forall k | 0 <= k < |s| :: IsJsWhitespace(s[k])
  }

  function TrimStart(s: string): (r: string)
    decreases |s|
  {
    if |s| > 0 && IsJsWhitespace(s[0]) then TrimStart(s[1..]) else s
  }

  function TrimEnd(s: string): (r: string)
    decreases |s|
  {
    if |s| > 0 && IsJsWhitespace(s[|s| - 1]) then TrimEnd(s[..|s| - 1]) else s
  }

  /** `s.trim()` */
  function Trim(s: string): string {
    TrimEnd(TrimStart(s))
  }

  lemma {:induction false} TrimStartEmptyIffBlank(s: string)
    ensures TrimStart(s) == "" <==> IsBlank(s)
    ensures TrimStart(s) != "" ==> !IsJsWhitespace(TrimStart(s)[0])
    decreases |s|
  {
    if |s| > 0 && IsJsWhitespace(s[0]) {
      TrimStartEmptyIffBlank(s[1..]);
      if IsBlank(s[1..]) {
        forall k | 0 <= k < |s| ensures IsJsWhitespace(s[k]) {
          if k > 0 { assert s[k] == s[1..][k - 1]; }
        }
      }
      if IsBlank(s) {
        forall k | 0 <= k < |s[1..]| ensures IsJsWhitespace(s[1..][k]) {
          assert s[1..][k] == s[k + 1];
        }
      }
    }
  }

  /** Trimming the end of a string that starts with a non-space keeps that start. */
  lemma {:induction false} TrimEndKeepsHead(s: string)
    requires |s| > 0 && !IsJsWhitespace(s[0])
    ensures TrimEnd(s) != ""
    decreases |s|
  {
    if IsJsWhitespace(s[|s| - 1]) {
      TrimEndKeepsHead(s[..|s| - 1]);
    }
  }

  /** `s.trim()` is empty exactly when `s` is all whitespace. */
  lemma TrimEmptyIffBlank(s: string)
    ensures Trim(s) == "" <==> IsBlank(s)
  {
    TrimStartEmptyIffBlank(s);
    var t := TrimStart(s);
    if t != "" {
      TrimEndKeepsHead(t);
    }
  }
}

=== FILE: transcribe_route.dfy ===
/**
 * `POST /api/transcribe` (src/app/api/transcribe/route.js): validate the
 * request, send the audio to the speech recogniser, join its results into one
 * transcript, and record the answer in the session's log, appending when the
 * stored log belongs to the same session and replacing it otherwise.
 */
module TranscribeRoute {
  import opened Wrappers
  import opened Text
  import opened AnswerLog

  const NoSpeech := "(No speech detected)"
  const UnknownField := "Unknown"
  const GoogleFailurePrefix := "Google API failed: "
  /** The message of the TypeError raised reading `.transcript` of a missing first alternative. */
  const MissingAlternativeMessage := "Cannot read properties of undefined (reading 'transcript')"
  /** The message of the TypeError raised pushing onto a stored document without `answers`. */
  const MissingAnswersMessage := "Cannot read properties of undefined (reading 'push')"

  /** The fields of the JSON body the route reads; each may be absent. */
  datatype Request = Request(
    audioData: Option<string>,
    questionId: Option<string>,
    sessionId: Option<string>,
    interviewType: Option<string>,
    experienceLevel: Option<string>)

  /** `request.json()` either fails with a message or yields the request. */
  datatype Body = Unreadable(message: string) | Parsed(request: Request)

  /**
   * What the speech recogniser answered: a non-OK status (with its status
   * text), a reply that is not JSON or a fetch that throws, such as a network
   * error (either with the error's message, which the route answers alike), or the list
   * of results, each the transcripts of its alternatives, best first. A reply
   * without `results` is an empty list.
   */
  datatype Recognition =
    | Rejected(statusText: string)
    | UnreadableReply(message: string)
    | Recognized(results: seq<seq<string>>)

  /** The response: 200 with the transcript, 400, or 500 with a message. */
  datatype Response = Transcribed(transcript: string) | NoAudio | MissingApiKey | Failed(message: string)

  function Status(r: Response): int {
    match r
    case Transcribed(_) => 200
    case NoAudio => 400
    case MissingApiKey => 500
    case Failed(_) => 500
  }

  datatype Outcome = Outcome(file: StoredFile<Document>, response: Response)

  /** `value || fallback` for an optional string. */
  function OrDefault(o: Option<string>, fallback: string): (r: string)
    ensures IsTruthy(o) ==> r == o.value
    ensures !IsTruthy(o) ==> r == fallback
  {
    if IsTruthy(o) then o.value else fallback
  }

  /** Each result's first alternative, or the TypeError when some result has none. */
  function FirstAlternatives(results: seq<seq<string>>): (r: Result<seq<string>, string>)
    ensures r.Ok? <==> forall k | 0 <= k < |results| :: |results[k]| > 0
    ensures r.Ok? ==> |r.value| == |results| && forall k | 0 <= k < |results| :: r.value[k] == results[k][0]
    ensures r.Err? ==> r.error == MissingAlternativeMessage
  {
    if |results| == 0 then Ok([])
    else if |results[0]| == 0 then Err(MissingAlternativeMessage)
    else match FirstAlternatives(results[1..])
      case Err(m) => Err(m)
      case Ok(rest) => Ok([results[0][0]] + rest)
  }

  /** The transcript to store: the raw one, or the sentinel when it is empty. */
  function StoredTranscript(t: string): (s: string)
    ensures s != ""
    ensures t != "" ==> s == t
    ensures t == "" ==> s == NoSpeech
  {
    if t == "" then NoSpeech else t
  }

  /**
   * The log after recording one answer for a truthy session id: appended to a
   * stored document of the same session, or a created document otherwise.
   */
  function Record(stored: StoredFile<Document>, req: Request, transcript: string, answeredAt: string, startedAt: string)
    : (r: Result<Document, string>)
    requires IsTruthy(req.sessionId)
  {
    var answer := Answer(req.questionId, StoredTranscript(transcript), answeredAt);
    if stored.Holds? && stored.value.sessionId == req.sessionId.value then
      match stored.value.answers
      case None => Err(MissingAnswersMessage)
      case Some(earlier) => Ok(stored.value.(answers := Some(earlier + [answer])))
    else
      Ok(Document(
        req.sessionId.value,
        startedAt,
        OrDefault(req.interviewType, UnknownField),
        OrDefault(req.experienceLevel, UnknownField),
        Some([answer])))
  }

  /** The stored document belongs to the request's session. */
  predicate SameSession(stored: StoredFile<Document>, req: Request) {
    IsTruthy(req.sessionId) && stored.Holds? && stored.value.sessionId == req.sessionId.value
  }

  /**
   * The whole route. `apiKeyConfigured` stands for the recogniser key in the
   * environment; `recognition` is the recogniser's answer, consulted only if
   * the route gets that far; `answeredAt` and `startedAt` are the two clock
   * readings the route takes.
   */
  function Post(stored: StoredFile<Document>, body: Body, apiKeyConfigured: bool, recognition: Recognition,
                answeredAt: string, startedAt: string): (o: Outcome)
    // Any failure, and any request without a session id, leaves the log as it was.
    ensures !o.response.Transcribed? ==> o.file == stored
    ensures body.Parsed? && !IsTruthy(body.request.sessionId) ==> o.file == stored
    // A missing audio payload is refused first, and nothing else is refused that way.
    ensures body.Parsed? && !IsTruthy(body.request.audioData) ==> o.response == NoAudio
    ensures o.response == NoAudio ==> body.Parsed? && !IsTruthy(body.request.audioData)
    ensures o.response == MissingApiKey ==> body.Parsed? && IsTruthy(body.request.audioData) && !apiKeyConfigured
    // The 500s: the recogniser's rejection, its unreadable reply, and the two TypeErrors.
    ensures (body.Parsed? && IsTruthy(body.request.audioData) && apiKeyConfigured && recognition.Rejected?) ==>
      o.response == Failed(GoogleFailurePrefix + recognition.statusText)
    ensures (body.Parsed? && IsTruthy(body.request.audioData) && apiKeyConfigured && recognition.UnreadableReply?) ==>
      o.response == Failed(recognition.message)
    ensures (body.Parsed? && IsTruthy(body.request.audioData) && apiKeyConfigured && recognition.Recognized?
      && FirstAlternatives(recognition.results).Err?) ==>
      o.response == Failed(MissingAlternativeMessage)
    ensures (body.Parsed? && IsTruthy(body.request.audioData) && apiKeyConfigured && recognition.Recognized?
      && FirstAlternatives(recognition.results).Ok? && SameSession(stored, body.request) && stored.value.answers.None?) ==>
      o.response == Failed(MissingAnswersMessage)
    ensures body.Unreadable? ==> o.response == Failed(body.message)
    // The recogniser failing is a 500 that records nothing.
    // Without the recogniser key the route stops with a configuration error.
    ensures body.Parsed? && IsTruthy(body.request.audioData) && !apiKeyConfigured ==> o.response == MissingApiKey
    // A well-formed call with usable results succeeds, with or without a session id, unless the
    // stored log of the same session has no answer list to append to.
    ensures (body.Parsed? && IsTruthy(body.request.audioData) && apiKeyConfigured && recognition.Recognized?
      && FirstAlternatives(recognition.results).Ok? && !(SameSession(stored, body.request) && stored.value.answers.None?)) ==>
      o.response == Transcribed(Join(FirstAlternatives(recognition.results).value))
    ensures body.Parsed? && IsTruthy(body.request.audioData) && apiKeyConfigured && !recognition.Recognized? ==>
      Status(o.response) == 500 && !o.response.Transcribed?
    // The transcript returned is the raw '\n'-join of each result's first alternative.
    ensures o.response.Transcribed? ==>
      && recognition.Recognized?
      && FirstAlternatives(recognition.results).Ok?
      && o.response.transcript == Join(FirstAlternatives(recognition.results).value)
    // Same session: exactly one answer appended, everything else kept.
    ensures o.response.Transcribed? && body.Parsed? && SameSession(stored, body.request) ==>
      && stored.value.answers.Some?
      && o.file == Holds(stored.value.(answers := Some(stored.value.answers.value
           + [Answer(body.request.questionId, StoredTranscript(o.response.transcript), answeredAt)])))
    // Otherwise, with a session id: a created document holding just this answer.
    ensures o.response.Transcribed? && body.Parsed? && IsTruthy(body.request.sessionId) && !SameSession(stored, body.request) ==>
      o.file == Holds(Document(
        body.request.sessionId.value, startedAt,
        OrDefault(body.request.interviewType, UnknownField),
        OrDefault(body.request.experienceLevel, UnknownField),
        Some([Answer(body.request.questionId, StoredTranscript(o.response.transcript), answeredAt)])))
  {
    match body
    case Unreadable(m) => Outcome(stored, Failed(m))
    case Parsed(req) =>
      if !IsTruthy(req.audioData) then Outcome(stored, NoAudio)
      else if !apiKeyConfigured then Outcome(stored, MissingApiKey)
      else match recognition
        case Rejected(statusText) => Outcome(stored, Failed(GoogleFailurePrefix + statusText))
        case UnreadableReply(m) => Outcome(stored, Failed(m))
        case Recognized(results) =>
          match FirstAlternatives(results)
          case Err(m) => Outcome(stored, Failed(m))
          case Ok(firsts) =>
            var transcript := Join(firsts);
            if !IsTruthy(req.sessionId) then Outcome(stored, Transcribed(transcript))
            else match Record(stored, req, transcript, answeredAt, startedAt)
              case Err(m) => Outcome(stored, Failed(m))
              case Ok(doc) => Outcome(Holds(doc), Transcribed(transcript))
  }

  /** One call of the route, with everything the environment supplies. */
  datatype Exchange = Exchange(request: Request, recognition: Recognition, answeredAt: string, startedAt: string)

  /** Successive calls, each seeing the log the previous one left. */
  function PostAll(stored: StoredFile<Document>, xs: seq<Exchange>): StoredFile<Document>
    decreases |xs|
  {
    if |xs| == 0 then stored
    else PostAll(Post(stored, Parsed(xs[0].request), true, xs[0].recognition, xs[0].answeredAt, xs[0].startedAt).file, xs[1..])
  }

  /** A call that is recorded: audio present, this session's id, and results that all have an alternative. */
  predicate Recordable(x: Exchange, sessionId: string) {
    && IsTruthy(x.request.audioData)
    && x.request.sessionId == Some(sessionId)
    && x.recognition.Recognized?
    && FirstAlternatives(x.recognition.results).Ok?
  }

  /** The answer a recordable call stores. */
  function AnswerOf(x: Exchange): Answer
    requires x.recognition.Recognized? && FirstAlternatives(x.recognition.results).Ok?
  {
    Answer(x.request.questionId, StoredTranscript(Join(FirstAlternatives(x.recognition.results).value)), x.answeredAt)
  }

  function AnswersOf(xs: seq<Exchange>, sessionId: string): (r: seq<Answer>)
    requires forall k | 0 <= k < |xs| :: Recordable(xs[k], sessionId)
    ensures |r| == |xs|
  {
    if |xs| == 0 then []
    else
      assert Recordable(xs[0], sessionId);
      [AnswerOf(xs[0])] + AnswersOf(xs[1..], sessionId)
  }

  /** One recorded call for the session of the stored log appends its answer. */
  lemma RecordedCallAppends(doc: Document, x: Exchange, sessionId: string)
    requires sessionId != "" && doc.sessionId == sessionId && doc.answers.Some?
    requires Recordable(x, sessionId)
    ensures Post(Holds(doc), Parsed(x.request), true, x.recognition, x.answeredAt, x.startedAt).file
      == Holds(doc.(answers := Some(doc.answers.value + [AnswerOf(x)])))
  {
  }

  /** Calls for the session of an already stored log append their answers in call order. */
  lemma {:induction false} SameSessionAppendsInOrder(doc: Document, xs: seq<Exchange>, sessionId: string)
    requires sessionId != "" && doc.sessionId == sessionId && doc.answers.Some?
    requires forall k | 0 <= k < |xs| :: Recordable(xs[k], sessionId)
    ensures PostAll(Holds(doc), xs) == Holds(doc.(answers := Some(doc.answers.value + AnswersOf(xs, sessionId))))
    decreases |xs|
  {
    if |xs| > 0 {
      var x := xs[0];
      assert Recordable(x, sessionId);
      var next := doc.(answers := Some(doc.answers.value + [AnswerOf(x)]));
      RecordedCallAppends(doc, x, sessionId);
      assert forall k | 0 <= k < |xs[1..]| :: Recordable(xs[1..][k], sessionId) by {
        forall k | 0 <= k < |xs[1..]| ensures Recordable(xs[1..][k], sessionId) {
          assert xs[1..][k] == xs[k + 1];
        }
      }
      SameSessionAppendsInOrder(next, xs[1..], sessionId);
      assert PostAll(Holds(doc), xs) == PostAll(Holds(next), xs[1..]);
      assert AnswersOf(xs, sessionId) == [AnswerOf(x)] + AnswersOf(xs[1..], sessionId);
      assert doc.answers.value + [AnswerOf(x)] + AnswersOf(xs[1..], sessionId)
          == doc.answers.value + AnswersOf(xs, sessionId);
      assert next.(answers := Some(next.answers.value + AnswersOf(xs[1..], sessionId)))
          == doc.(answers := Some(doc.answers.value + AnswersOf(xs, sessionId)));
    } else {
      assert doc.answers.value + AnswersOf(xs, sessionId) == doc.answers.value;
    }
  }

  /**
   * A session's run of recorded calls, whatever log it starts from, as long as
   * that log is not already this session's: the first call replaces the log,
   * and the log then holds exactly one answer per call, in call order, under
   * this session's id.
   */
  lemma NewSessionLogHoldsEachAnswerOnce(stored: StoredFile<Document>, xs: seq<Exchange>, sessionId: string)
    requires sessionId != "" && |xs| > 0
    requires !(stored.Holds? && stored.value.sessionId == sessionId)
    requires forall k | 0 <= k < |xs| :: Recordable(xs[k], sessionId)
    ensures PostAll(stored, xs).Holds?
    ensures PostAll(stored, xs).value.sessionId == sessionId
    ensures PostAll(stored, xs).value.answers == Some(AnswersOf(xs, sessionId))
  {
    var x := xs[0];
    assert Recordable(x, sessionId);
    var created := Post(stored, Parsed(x.request), true, x.recognition, x.answeredAt, x.startedAt).file;
    assert created.Holds? && created.value.sessionId == sessionId && created.value.answers == Some([AnswerOf(x)]);
    assert forall k | 0 <= k < |xs[1..]| :: Recordable(xs[1..][k], sessionId) by {
      forall k | 0 <= k < |xs[1..]| ensures Recordable(xs[1..][k], sessionId) {
        assert xs[1..][k] == xs[k + 1];
      }
    }
    SameSessionAppendsInOrder(created.value, xs[1..], sessionId);
  }
}

=== FILE: vitals_session.dfy ===
/**
 * The vitals logger's session bookkeeping (`SessionManager` and the key and
 * metrics callbacks in presage_quickstart/hello_vitals.cpp). The 'a' key
 * toggles recording of one question; metrics frames that arrive while
 * recording are collected; ending a recording that collected a pulse writes
 * a numbered summary and moves on to the next question number. The files the
 * manager writes are kept as values: the raw log's rows and the summaries.
 */
module VitalsSession {

  /** The rate series of one metrics frame; the newest reading is the last. */
  datatype Metrics = Metrics(pulseRates: seq<real>, breathingRates: seq<real>)

  /** One line of the raw log, without the timestamp and confidence columns. */
  datatype RawRow = RawRow(sampleIndex: int, questionNumber: int, pulse: real, breathing: real)

  /** One `question_<n>_summary.json`, without the averages and the duration. */
  datatype Summary = Summary(questionNumber: int, sampleCount: nat, pulses: seq<real>, breathings: seq<real>)

  datatype Manager = Manager(
    recording: bool,
    questionCounter: int,
    sampleCounter: int,
    pulses: seq<real>,
    breathings: seq<real>,
    rawLog: seq<RawRow>,
    summaries: seq<Summary>)

  /**
   * A new manager: not recording, at question 1, with an empty raw log (the
   * constructor truncates the raw log and the events file) and no summary
   * written yet by this run.
   */
  const Fresh := Manager(false, 1, 0, [], [], [], [])

  /** Recording starts over for the current question number. */
  function StartSession(m: Manager): (r: Manager)
    ensures r.recording && r.sampleCounter == 0 && r.pulses == [] && r.breathings == []
    ensures r.questionCounter == m.questionCounter
    ensures r.rawLog == m.rawLog && r.summaries == m.summaries
  {
    m.(recording := true, sampleCounter := 0, pulses := [], breathings := [])
  }

  /**
   * Recording stops. With no pulse collected nothing is written and the
   * question number stays; otherwise a summary for the current number is
   * written and the number moves on. The collected lists are kept.
   */
  function EndSession(m: Manager): (r: Manager)
    ensures !r.recording
    ensures r.pulses == m.pulses && r.breathings == m.breathings && r.sampleCounter == m.sampleCounter
    ensures r.rawLog == m.rawLog
    ensures m.pulses == [] ==> r.questionCounter == m.questionCounter && r.summaries == m.summaries
    ensures m.pulses != [] ==>
      && r.questionCounter == m.questionCounter + 1
      && r.summaries == m.summaries + [Summary(m.questionCounter, |m.pulses|, m.pulses, m.breathings)]
  {
    if m.pulses == [] then m.(recording := false)
    else
      m.(recording := false,
         summaries := m.summaries + [Summary(m.questionCounter, |m.pulses|, m.pulses, m.breathings)],
         questionCounter := m.questionCounter + 1)
  }

  function Last(xs: seq<real>): real
    requires |xs| > 0
  {
    xs[|xs| - 1]
  }

  /**
   * A frame while recording: the newest pulse and the newest breathing rate
   * are collected when present, the sample count goes up, and one raw row is
   * written with 0 for an absent reading. Outside a recording nothing changes.
   */
  function ProcessMetrics(m: Manager, metrics: Metrics): (r: Manager)
    ensures !m.recording ==> r == m
    ensures m.recording ==>
      && r.sampleCounter == m.sampleCounter + 1
      && r.pulses == m.pulses + (if metrics.pulseRates == [] then [] else [Last(metrics.pulseRates)])
      && r.breathings == m.breathings + (if metrics.breathingRates == [] then [] else [Last(metrics.breathingRates)])
      && |r.rawLog| == |m.rawLog| + 1 && r.rawLog[..|m.rawLog|] == m.rawLog
      && r.rawLog[|m.rawLog|].sampleIndex == r.sampleCounter
      && r.rawLog[|m.rawLog|].questionNumber == m.questionCounter
      && r.rawLog[|m.rawLog|].pulse == (if metrics.pulseRates == [] then 0.0 else Last(metrics.pulseRates))
      && r.rawLog[|m.rawLog|].breathing == (if metrics.breathingRates == [] then 0.0 else Last(metrics.breathingRates))
    ensures r.recording == m.recording && r.questionCounter == m.questionCounter && r.summaries == m.summaries
  {
    if !m.recording then m
    else
      var pulse := if metrics.pulseRates == [] then 0.0 else Last(metrics.pulseRates);
      var breathing := if metrics.breathingRates == [] then 0.0 else Last(metrics.breathingRates);
      var count := m.sampleCounter + 1;
      m.(pulses := m.pulses + (if metrics.pulseRates == [] then [] else [pulse]),
         breathings := m.breathings + (if metrics.breathingRates == [] then [] else [breathing]),
         sampleCounter := count,
         rawLog := m.rawLog + [RawRow(count, m.questionCounter, pulse, breathing)])
  }

  /** What the video callback makes of a key code: stop the run, or carry on. */
  datatype KeyOutcome = Quit | Continue(manager: Manager)

  /** `cv::waitKey(1) & 0xFF` on a two's-complement `int`: the low eight bits. */
  function LowByte(key: int): (b: int)
    ensures 0 <= b < 256 && (key - b) % 256 == 0
  {
    key % 256
  }

  const KeyQuit := 113    // 'q'
  const KeyEscape := 27
  const KeyToggle := 97   // 'a'

  /** 'q' or Escape quit; 'a' ends a recording or starts one; every other key is ignored. */
  function OnKey(m: Manager, key: int): (o: KeyOutcome)
    ensures o.Quit? <==> LowByte(key) == KeyQuit || LowByte(key) == KeyEscape
    ensures o.Continue? && LowByte(key) == KeyToggle ==> o.manager.recording == !m.recording
    ensures o.Continue? && LowByte(key) == KeyToggle ==>
      o.manager == if m.recording then EndSession(m) else StartSession(m)
    ensures o.Continue? && LowByte(key) != KeyToggle ==> o.manager == m
  {
    var k := LowByte(key);
    if k == KeyQuit || k == KeyEscape then Quit
    else if k == KeyToggle then Continue(if m.recording then EndSession(m) else StartSession(m))
    else Continue(m)
  }

  /** What reaches the manager: a metrics frame or a key read by the video callback. */
  datatype Event = Frame(metrics: Metrics) | Key(code: int)

  /** The metrics callback only hands frames on while recording. */
  function OnFrame(m: Manager, metrics: Metrics): (r: Manager)
    ensures m.recording ==> r == ProcessMetrics(m, metrics)
    ensures !m.recording ==> r == m
  {
    if m.recording then ProcessMetrics(m, metrics) else m
  }

  /** Events in order until one quits; the manager as the run leaves it. */
  function Run(m: Manager, events: seq<Event>): Manager
    decreases |events|
  {
    if |events| == 0 then m
    else
      match events[0]
      case Frame(metrics) => Run(OnFrame(m, metrics), events[1..])
      case Key(code) =>
        match OnKey(m, code)
        case Quit => m
        case Continue(next) => Run(next, events[1..])
  }

  /**
   * What the manager keeps true: summaries are numbered 1, 2, 3, ... in the
   * order written, each covers at least one pulse, and the question number is
   * the next unused one; the current recording holds no more readings than
   * samples; raw rows carry positive sample indexes and never a question
   * number ahead of the current one, in non-decreasing order.
   */
  predicate Inv(m: Manager) {
    && m.questionCounter == |m.summaries| + 1
    && (forall k | 0 <= k < |m.summaries| ::
          m.summaries[k].questionNumber == k + 1 && m.summaries[k].sampleCount >= 1
          && m.summaries[k].sampleCount == |m.summaries[k].pulses|)
    && 0 <= |m.pulses| <= m.sampleCounter
    && |m.breathings| <= m.sampleCounter
    && (forall k | 0 <= k < |m.rawLog| ::
          m.rawLog[k].sampleIndex >= 1 && m.rawLog[k].questionNumber <= m.questionCounter)
    && (forall k | 0 < k < |m.rawLog| :: m.rawLog[k - 1].questionNumber <= m.rawLog[k].questionNumber)
  }

  lemma FreshKeepsInvariant()
    ensures Inv(Fresh)
  {
  }

  lemma EndSessionKeepsInvariant(m: Manager)
    requires Inv(m)
    ensures Inv(EndSession(m))
  {
    var r := EndSession(m);
    if m.pulses != [] {
      forall k | 0 <= k < |r.summaries|
        ensures r.summaries[k].questionNumber == k + 1 && r.summaries[k].sampleCount >= 1
          && r.summaries[k].sampleCount == |r.summaries[k].pulses|
      {
        if k < |m.summaries| { assert r.summaries[k] == m.summaries[k]; }
      }
    }
  }

  lemma ProcessMetricsKeepsInvariant(m: Manager, metrics: Metrics)
    requires Inv(m)
    ensures Inv(ProcessMetrics(m, metrics))
  {
    var r := ProcessMetrics(m, metrics);
    if m.recording {
      forall k | 0 <= k < |r.rawLog|
        ensures r.rawLog[k].sampleIndex >= 1 && r.rawLog[k].questionNumber <= r.questionCounter
      {
        if k < |m.rawLog| { assert r.rawLog[k] == m.rawLog[k]; }
      }
      forall k | 0 < k < |r.rawLog|
        ensures r.rawLog[k - 1].questionNumber <= r.rawLog[k].questionNumber
      {
        if k < |m.rawLog| { assert r.rawLog[k] == m.rawLog[k] && r.rawLog[k - 1] == m.rawLog[k - 1]; }
      }
    }
  }

  /**
   * Along any run the invariant holds, the question number never goes down,
   * and summaries and raw rows are only ever appended: a written summary or
   * row is never rewritten.
   */
  lemma {:induction false} RunKeepsInvariant(m: Manager, events: seq<Event>)
    requires Inv(m)
    ensures Inv(Run(m, events))
    ensures Run(m, events).questionCounter >= m.questionCounter
    ensures m.summaries <= Run(m, events).summaries
    ensures m.rawLog <= Run(m, events).rawLog
    decreases |events|
  {
    if |events| > 0 {
      match events[0]
      case Frame(metrics) =>
        var next := OnFrame(m, metrics);
        ProcessMetricsKeepsInvariant(m, metrics);
        RunKeepsInvariant(next, events[1..]);
      case Key(code) =>
        match OnKey(m, code)
        case Quit =>
        case Continue(next) =>
          if LowByte(code) == KeyToggle && m.recording {
            EndSessionKeepsInvariant(m);
          }
          RunKeepsInvariant(next, events[1..]);
    }
  }

  /**
   * Within one run of the program, from a fresh manager, the k-th summary
   * written is for question k + 1 and the question number is the next unused
   * one, so no summary file name is used twice in that run.
   */
  lemma SummariesNeverOverwrite(events: seq<Event>) returns (r: Manager)
    ensures r == Run(Fresh, events)
    ensures forall k | 0 <= k < |r.summaries| :: r.summaries[k].questionNumber == k + 1
    ensures r.questionCounter == |r.summaries| + 1
    ensures forall a, b | 0 <= a < b < |r.summaries| :: r.summaries[a].questionNumber != r.summaries[b].questionNumber
  {
    FreshKeepsInvariant();
    RunKeepsInvariant(Fresh, events);
    r := Run(Fresh, events);
  }

  /**
   * Within one recording, the raw rows written are numbered 1, 2, ..., n in
   * arrival order (the CSV's `sample_index` restarts for each question) and
   * all carry the question being recorded.
   */
  lemma {:induction false} RecordingRowsCountFromOne(m: Manager, events: seq<Event>) returns (r: Manager)
    requires m.recording
    requires forall k | 0 <= k < |events| :: events[k].Frame?
    ensures r == Run(m, events)
    ensures r.recording && r.questionCounter == m.questionCounter
    ensures r.sampleCounter == m.sampleCounter + |events|
    ensures |r.rawLog| == |m.rawLog| + |events| && r.rawLog[..|m.rawLog|] == m.rawLog
    ensures forall k | |m.rawLog| <= k < |r.rawLog| ::
      r.rawLog[k].sampleIndex == m.sampleCounter + (k - |m.rawLog|) + 1
      && r.rawLog[k].questionNumber == m.questionCounter
    decreases |events|
  {
    if |events| == 0 {
      r := m;
    } else {
      var next := ProcessMetrics(m, events[0].metrics);
      assert Run(m, events) == Run(next, events[1..]);
      r := RecordingRowsCountFromOne(next, events[1..]);
      assert r.rawLog[|m.rawLog|] == r.rawLog[..|next.rawLog|][|m.rawLog|];
      assert r.rawLog[..|m.rawLog|] == r.rawLog[..|next.rawLog|][..|m.rawLog|];
    }
  }

  /** Starting a recording and feeding it frames numbers the rows from 1. */
  lemma RecordingStartsAtOne(m: Manager, events: seq<Event>) returns (r: Manager)
    requires forall k | 0 <= k < |events| :: events[k].Frame?
    ensures r == Run(StartSession(m), events)
    ensures |r.rawLog| == |m.rawLog| + |events|
    ensures forall k | |m.rawLog| <= k < |r.rawLog| :: r.rawLog[k].sampleIndex == k - |m.rawLog| + 1
  {
    r := RecordingRowsCountFromOne(StartSession(m), events);
  }
}

=== FILE: wrappers.dfy ===
/** Failure-carrying datatypes shared by every module of the model. */
module Wrappers {

  /** A value that may be absent: a JSON field left out, a file that does not exist. */
  datatype Option<T> = None | Some(value: T) {

    /** The value, or `default` when absent (JavaScript's `x ?? default`). */
    function GetOr(default: T): T {
      match this
      case Some(v) => v
      case None => default
    }
  }

  /** The result of an operation that may throw: `Err` carries the error's message. */
  datatype Result<T, E> = Ok(value: T) | Err(error: E)
}
